=== FILE: README.md ===
# Tenant chat store and request gating, modelled in Dafny

This project models three small, sequential parts of a multi-tenant chat
application (a Next.js front end over a Postgres schema declared with Drizzle,
signing in through Supabase):

1. **The tenant database** (`lib/db/schema.ts`). It has seven tables:
   businesses, users, business accesses (grants), conversations, messages,
   RAG chunks and RAG queries. Each is an immutable sequence of row datatypes
   (`Schema`). The invariant `Schema.Valid` holds that every primary key is
   unique and every non-null foreign key names an existing row. Each foreign
   key's delete action is modelled:
   - deleting a business cascades to the grants that name it;
   - it sets to NULL the business reference of users, conversations, chunks
     and queries;
   - deleting a conversation or user that a reference without an action
     still names is refused.
   The column default `isPublic = false` is also modelled.
2. **The chat queries** (`lib/db/queries.ts`). Each is a pure operation on the
   database (`Queries`): `getUser`, `getMessageById`,
   `deleteMessagesByChatIdAfterTimestamp`, `saveMessages`,
   `updateConversationVisibilityById` and `createConversation`. A statement
   that would be refused yields `Err` and leaves the database unchanged. The
   modelled refusals are: a key given as text that is not a uuid; a text
   parameter holding U+0000 (`getUser`'s email, a saved message's content or
   role); a key that is taken; a foreign key that would dangle; and, for
   `saveMessages`, an empty batch. Refusals that come from the driver's limits
   rather than the data are listed under "Left out".
   Every operation that writes is proved to preserve `Valid`.
3. **Request gating**:
   - the root middleware (`middleware.ts`, module `RootMiddleware`);
   - the Supabase session refresher (`lib/supabase/middleware.ts`, module
     `SessionMiddleware`);
   - the authentication callback route (`app/auth/callback/route.ts`, module
     `AuthCallback`).
   Each is a total function of the session/user/query-parameter inputs.
   Exhaustive-case lemmas and "no redirect loop" lemmas are proved about them.

Supporting modules: `Values` holds `Option`, `Result`, uuids, timestamps and
the `Fresh` pair standing for `crypto.randomUUID()` / `new Date()`.
`UuidText` holds how Postgres reads a `uuid` given as text. Text that is not
a uuid is refused. Letter case, braces and hyphens do not change the value
the text names. A stored key is taken to be its value's canonical text,
lower-case digits grouped 8-4-4-4-12. `Tables`
holds the generic filter, map and key lemmas. `Http` holds the URL,
response and path-prefix test.

Some things the code does not do, though the schema's names may suggest them:
- There is no authorization engine, grant evaluation, grant expiry or
  tenant-membership check anywhere in the code. `businessAccesses` is declared
  and imported but never read or written. So none of these is modelled.
- `users.email` carries no unique constraint. `getUser` can return several
  rows (`Queries.GetUserMayReturnSeveral`).
- A conversation's visibility does not default to private.
  `createConversation` never writes it (`Queries.CreateConversationIgnoresVisibility`).
- No foreign key refuses deleting a business. Conversations and chunks lose their
  business reference.
- `businesses.owner_id` is not a foreign key. A user who owns a business can
  be deleted (`Schema.DeleteOwnerAccepted`).
- `deleteMessagesByChatIdAfterTimestamp` performs no permission check.

The queries write three columns that `schema.ts` does not declare:
`conversations.title`, `conversations.visibility` and `users.password`. The
row datatypes carry these columns, and a comment marks each mismatch.

## Model

| member | source | states |
|---|---|---|
| Schema.NewBusiness | lib/db/schema.ts:4-12 | a business inserted without `isPublic` has `isPublic = false`; a given value is kept; both timestamps default to the insert time |
| Schema.InsertBusiness | lib/db/schema.ts:5-8 | the insert is refused with a unique violation exactly when the key is taken; otherwise exactly the new row is appended and no other table changes |
| Schema.InsertBusinessPreservesValid | lib/db/schema.ts:5 | an accepted business insert keeps keys unique and references resolvable |
| Schema.Unlink | lib/db/schema.ts:19 | `set null`: a reference to the deleted business becomes NULL; any other reference is kept |
| Schema.DeleteBusiness | lib/db/schema.ts:4-67 | no foreign key refuses deleting business B; the business table loses exactly B's rows; the grants kept are exactly those not naming B; users, conversations, chunks and queries keep their row count; messages are untouched |
| Schema.DeleteBusinessCascadesGrants | lib/db/schema.ts:26-27 | `cascade`: every grant whose accessing or target business is B is removed; every other grant keeps its exact multiplicity |
| Schema.DeleteBusinessNullsReferences | lib/db/schema.ts:19-63 | `set null` on users, conversations, chunks and queries: each row stays at its place; its business reference becomes NULL exactly when it was B; every other column is unchanged |
| Schema.DeleteBusinessKeepsUnrelatedRows | lib/db/schema.ts:14-67 | rows that did not reference B, the other businesses and the whole message table come through unchanged |
| Schema.DeleteBusinessLeavesNoReference | lib/db/schema.ts:19-63 | after the delete, no business has key B and no row of any table holds B as a business reference |
| Schema.DeleteBusinessKeys | lib/db/schema.ts:5 | after the delete the business keys are the old ones minus B; user and conversation keys are unchanged |
| Schema.DeleteBusinessKeepsKeysUnique | lib/db/schema.ts:4-67 | the delete cannot duplicate a primary key in any table |
| Schema.DeleteBusinessKeepsRefsIntact | lib/db/schema.ts:19-63 | the delete leaves no dangling foreign key: cascade and set null remove exactly the references to B |
| Schema.DeleteBusinessPreservesValid | lib/db/schema.ts:4-67 | deleting a business keeps the database consistent |
| Schema.Valid | lib/db/schema.ts:5-63 | the integrity the database keeps between statements: each table's `id` primary key is unique, and every non-null `references()` column names an existing row of its target table |
| Schema.DeleteConversation | lib/db/schema.ts:44 | the delete is refused, naming `messages.conversation_id`, exactly when a message still references the conversation; an accepted delete removes exactly that conversation and changes no other table |
| Schema.DeleteUser | lib/db/schema.ts:36-62 | the delete is refused exactly when a conversation, message sender or RAG query still references the user, and the reported column is one that does; an accepted delete removes exactly that user and changes no other table |
| Schema.DeleteOwnerAccepted | lib/db/schema.ts:6 | the owner column is not a foreign key: a business owner with no other references is deleted and the business still names them |
| Schema.DeleteConversationPreservesValid | lib/db/schema.ts:44 | an accepted conversation delete keeps the database consistent |
| Schema.DeleteUserPreservesValid | lib/db/schema.ts:36-62 | an accepted user delete keeps the database consistent |
| Queries.GetUser | lib/db/queries.ts:18-20 | fails iff the email holds U+0000, which no text parameter may; otherwise returns exactly the users whose email equals the argument, each with its stored multiplicity |
| Queries.GetUserRefusesNul | lib/db/queries.ts:20 | the email "a\0b@example.com" makes the lookup fail; "a@example.com" is looked up |
| Queries.GetUserMayReturnSeveral | lib/db/schema.ts:16 | in a consistent database two users can share an email, and `getUser` returns both |
| Queries.GetMessageById | lib/db/queries.ts:71-77 | fails with an invalid-uuid error iff the id text is not a uuid; otherwise returns exactly the messages whose key is the value the text names |
| Queries.GetMessageByIdAtMostOne | lib/db/queries.ts:73 | in a consistent database an accepted lookup has at most one row; it has exactly one iff a message with that key exists |
| Queries.GetMessageByIdIgnoresCase | lib/db/queries.ts:73 | two id texts that differ only in letter case are both refused or find the same rows |
| Queries.GetMessageByUpperCaseKey | lib/db/queries.ts:73 | the upper-case spelling of a stored message's key finds that message |
| Queries.GetMessageByIdRefusesText | lib/db/queries.ts:73-77 | the id "not-a-uuid" makes the lookup fail with an invalid-uuid error |
| Queries.DeleteScope | lib/db/queries.ts:88-95 | the delete for a parsed key: only the message table changes, and a message survives iff it is not (in chat c and created at or after t) |
| Queries.DeleteMessagesByChatIdAfterTimestamp | lib/db/queries.ts:80-99 | fails with an invalid-uuid error iff chatId is not uuid text; otherwise only the message table changes, and a message survives iff it is not (in the chat chatId names and created at or after t) |
| Queries.DeleteMessagesRemovesExactlyScope | lib/db/queries.ts:88-95 | after an accepted delete, every message of the chat created at or after t is gone; messages of other conversations and earlier messages keep their multiplicity; the table shrinks by exactly the number of targeted rows |
| Queries.DeleteMessagesIdempotent | lib/db/queries.ts:88-95 | after an accepted delete, a second call with the same arguments changes nothing |
| Queries.DeleteMessagesPreservesValid | lib/db/queries.ts:88-95 | an accepted scoped delete keeps the database consistent |
| Queries.ReadAll | lib/db/queries.ts:112-120 | the statement's parameters are read in order: either every text is accepted and each yields its value, or the result is the first text refused, all texts before it being accepted |
| Queries.ReadChats | lib/db/queries.ts:115 | the batch's chat texts are all uuids and each yields the value it spells, or the result is the first chat text that is not a uuid |
| Queries.MessageRow | lib/db/queries.ts:113-119 | a saved row puts the chat's value into conversationId, and copies content and role; its sender is NULL; its key and time are the generated ones |
| Queries.InsertMessages | lib/db/queries.ts:112-120 | the multi-row insert is all or nothing. It is refused iff a generated key repeats or is taken, or a chat does not exist. When accepted, the message table grows by exactly the batch length, the old rows stay as a prefix, and new row i carries element i's chat, content and role |
| Queries.SaveMessages | lib/db/queries.ts:102-120 | an empty batch is refused before any statement. A batch with a chat text that is not a uuid fails with an invalid-uuid error naming the first such text, and only then. A batch whose chats all read as uuids fails on U+0000 iff some content or role holds it. Otherwise the insert runs on the chats' values: when accepted, the message table grows by exactly the batch length, the old rows stay as a prefix, and new row i carries the value element i's chat text names, and element i's content and role |
| Queries.SaveMessagesRefusedIff | lib/db/queries.ts:112-120 | the batch is refused iff it is empty, a chat text is not a uuid, a content or role holds U+0000, a generated key repeats or is taken, or a chat's value names no conversation |
| Queries.SaveMessagesBySpelling | lib/db/queries.ts:115 | any text spelling an existing chat's key, in whatever case or form, stores the message, with its content and role, under that chat |
| Queries.SaveMessagesByUpperCaseChat | lib/db/queries.ts:115 | the upper-case spelling of an existing chat's key stores the message under that chat |
| Queries.SaveMessagesRefusesNul | lib/db/queries.ts:116 | content "a\0b" is refused even for an existing chat under a fresh key |
| Queries.SaveMessagesRefusals | lib/db/queries.ts:112-120 | the empty batch is refused as an empty insert; the chat text "not-a-uuid" is refused with an invalid-uuid error |
| Queries.InsertMessagesPreservesValid | lib/db/queries.ts:112-120 | an accepted multi-row insert keeps the database consistent |
| Queries.SaveMessagesPreservesValid | lib/db/queries.ts:112-120 | an accepted batch keeps the database consistent |
| Queries.UpdateConversationVisibilityById | lib/db/queries.ts:127-142 | fails with an invalid-uuid error iff chatId is not uuid text; otherwise only the conversation table changes, and it keeps its length |
| Queries.UpdateVisibilityFrame | lib/db/queries.ts:135-138 | after an accepted update, the row keyed by the value chatId names gets `visibility = v`; no other column of it changes, and no other row changes |
| Queries.UpdateVisibilityAbsentIsNoop | lib/db/queries.ts:138 | when chatId is uuid text but no conversation has that key, the update succeeds and leaves the database equal to what it was |
| Queries.UpdateVisibilityPreservesValid | lib/db/queries.ts:135-138 | an accepted update keeps the database consistent |
| Queries.InsertConversation | lib/db/queries.ts:54-64 | the insert is refused iff the generated key is taken or the user does not exist, with a unique violation taking precedence. When accepted, exactly one row is appended with the given user and title, no business and no visibility, and that row is returned |
| Queries.CreateConversation | lib/db/queries.ts:44-64 | userId text that is not a uuid fails with an invalid-uuid error. Otherwise the insert is refused iff the generated key is taken or the user the text names does not exist, with a unique violation taking precedence. When accepted, exactly one row is appended with the user's value, the title, no business and no visibility, and that row is returned |
| Queries.CreateConversationBySpelling | lib/db/queries.ts:58 | any text spelling an existing user's key creates the conversation for that user |
| Queries.CreateConversationIgnoresVisibility | lib/db/queries.ts:47-62 | the outcome is the same whatever visibility is passed |
| Queries.CreateConversationReturnsStoredRow | lib/db/queries.ts:54-64 | the returned row is the single row added, stored after all earlier rows, which are unchanged |
| Queries.InsertConversationPreservesValid | lib/db/queries.ts:54-62 | an accepted conversation insert keeps the database consistent |
| Queries.CreateConversationPreservesValid | lib/db/queries.ts:54-62 | an accepted `createConversation` keeps the database consistent |
| UuidText.ParseUuid | lib/db/schema.ts:43-44 | reading uuid text yields canonical text or a refusal |
| UuidText.ParseCanonical | lib/db/schema.ts:43-44 | canonical uuid text is accepted and names itself |
| UuidText.ParseIgnoresCase | lib/db/schema.ts:43-44 | two texts that differ only in letter case are both refused or name the same value |
| UuidText.UpperCaseNamesSameKey | lib/db/schema.ts:43-44 | the upper-case spelling of canonical text names the same value |
| UuidText.ParseExamples | lib/db/schema.ts:43-44 | "not-a-uuid" and the empty text are refused |
| Http.IsAuthPath | middleware.ts:12-13 | a path is an authentication page iff it begins with "/login" or "/register", by a bare prefix test; lib/supabase/middleware.ts:32 applies the same test |
| Http.AtPath | middleware.ts:16-20 | a redirect to an absolute path keeps the request's origin, sets that path and drops query and fragment |
| Http.AuthPathExamples | middleware.ts:12-13 | the auth-page test is a bare prefix test: "/loginx" and "/register/confirm" count; "/", "/logi" and "/api/login" do not |
| RootMiddleware.Middleware | middleware.ts:6-24 | a redirect keeps the request's origin and carries no query or fragment |
| RootMiddleware.MiddlewareMatchesPolicy | middleware.ts:12-23 | a request passes iff its visitor may stay there: with a session anywhere but an auth page, without one only on an auth page or "/". A redirect goes to "/" with a session and to "/login" without |
| RootMiddleware.MiddlewareCases | middleware.ts:15-23 | with a session: auth page redirects to "/", anything else passes. Without one: "/" and auth pages pass, anything else redirects to "/login" |
| RootMiddleware.MiddlewareNoLoop | middleware.ts:12-23 | replaying a redirected request against its target with the same session state passes |
| SessionMiddleware.UpdateSession | lib/supabase/middleware.ts:32-35 | a redirect is the request URL with only its path replaced by "/login" |
| SessionMiddleware.UpdateSessionCases | lib/supabase/middleware.ts:32-38 | a request passes iff there is a user or its path is an auth page; a redirect keeps origin, query and fragment |
| SessionMiddleware.RootPathDiffers | lib/supabase/middleware.ts:32 | without a user, "/" is redirected here while the root middleware lets it through |
| SessionMiddleware.UpdateSessionNoLoop | lib/supabase/middleware.ts:32-38 | replaying a redirected request against its target with the same user state passes |
| AuthCallback.NextOrRoot | app/auth/callback/route.ts:11 | `next` falls back to "/" only when absent; an empty value is kept |
| AuthCallback.Select | app/auth/callback/route.ts:15-26 | OTP verification runs iff token and type are both non-empty. Otherwise code exchange runs iff the code is non-empty. Otherwise no call is made. Each call receives the parameter values |
| AuthCallback.Callback | app/auth/callback/route.ts:6-37 | the call made is the selected one; a failed call redirects to "/login"; otherwise the redirect goes to `next ?? "/"` when the URL parser resolves it, and the route throws when it does not |
| AuthCallback.OtpBranchIgnoresCode | app/auth/callback/route.ts:15-26 | with token and type non-empty, the OTP branch runs and changing the code changes nothing |
| AuthCallback.TokenWithoutTypeFallsThrough | app/auth/callback/route.ts:15-26 | a token with a missing or empty type falls through to the code branch, or to no call at all |
| AuthCallback.CallbackLocation | app/auth/callback/route.ts:22-36 | an OTP or exchange error redirects to "/login"; the route throws exactly when no call failed and `next ?? "/"` cannot be resolved; with no call it redirects iff that reference resolves; on success an absent `next` gives "/" and an empty one gives "" |
| AuthCallback.UnresolvableNextThrows | app/auth/callback/route.ts:36 | with `next` = "//", which has an empty host, the route throws unless the call failed, in which case it still redirects to "/login" |

## Left out

- The authorization engine, grant activity and expiry, self-grant rejection and tenant-membership checks: the code has none of them, so modelling them would invent behaviour.
- `createUser` (lib/db/queries.ts:27-42): it rests on bcrypt salting and hashing, which is foreign code. The row it writes also omits the `name` and `role` columns that schema.ts declares NOT NULL without a default. How the running database treats that is not visible here.
- `crypto.randomUUID()` and `new Date()`: each generated row takes a supplied `Fresh(id, at)`. One `Fresh` covers both `new Date()` calls of one row, so `createdAt` and `updatedAt` are taken as one instant.
- The undeclared columns: schema.ts has no `title`, `visibility` or `password` column, so Drizzle does not write `title` (lib/db/queries.ts:59) or `password` (lib/db/queries.ts:34), and `.set({ visibility })` (lib/db/queries.ts:137) has no declared column to set. The model deliberately follows what the queries intend to write, and stores these columns.
- SQL result order: `getUser` and `getMessageById` return rows in table order. SQL itself promises no order without ORDER BY.
- SaveMessages / SaveMessagesRefusedIff / GetUser: the driver's limit on bound parameters (a 16-bit count, so a batch of roughly 13,000 rows at five parameters a row) is not modelled, and such a batch is accepted. The parameter order across rows is not modelled either. When a batch has both a chat text that is not a uuid and a content or role holding U+0000, the model reports the uuid error. U+0000 in the uuid texts of the other queries is reported as an invalid uuid. A conversation title holding U+0000 is stored, because Drizzle sends no title at all (see the undeclared columns below).
- When one statement violates several constraints, which one Postgres reports is not modelled. The model reports a unique violation before a foreign-key violation. For a user delete it checks conversations, then message senders, then RAG queries.
- Supabase clients, cookie get/set/remove, `getSession`, `getUser`, `verifyOtp` and `exchangeCodeForSession` are network and session I/O. They are taken as a boolean (session or user present) or as a function reporting whether the call failed.
- The Next.js matcher (middleware.ts:26-28) and `NextResponse` objects: these are library behaviour.
- Callback / CallbackLocation: the URL parser's rules for resolving `next` against the request URL are not modelled. Whether `new URL(next, request.url)` succeeds is an input (`resolves`), and when it does the outcome carries the unresolved reference rather than the resolved URL.
- The jsonb `metadata` of RAG chunks, the contents of the embedding, and arithmetic on `publicAccessFee`: they are stored values with no logic in the core.
- Stored keys: `Valid` does not require them to be canonical text, and the inserts accept any generated key. The model assumes every stored key is canonical lower-case text. The keys the queries write come from `crypto.randomUUID()` (lib/db/queries.ts:32, 57 and 114), which yields that text. schema.ts declares no default for any key, and Postgres hands any uuid value back as canonical text. The lemmas about other spellings of a stored key (`GetMessageByUpperCaseKey`, `SaveMessagesByUpperCaseChat`) therefore ask for that key to be canonical.
- Error logging in the `catch` blocks: errors are only logged and rethrown, which the model renders as `Err`.
- Concurrency between statements: each operation is one atomic statement on one database value.
- next.config.ts, drizzle.config.ts, lib/ai/models.ts and lib/ai/index.ts: static configuration, a constant model list and a call into OpenAI.

=== FILE: callback.dfy ===
/**
 The authentication callback of app/auth/callback/route.ts: read `token`,
 `type`, `code` and `next` from the query string, run at most one Supabase
 exchange, and redirect. The two Supabase calls are inputs: each is a
 function saying whether the call reports an error for its arguments.
 The redirect is described by the reference handed to `new URL(_, request.url)`.
 Whether the URL parser can resolve that reference against the request URL is
 an input too: it cannot for a reference such as "//" or "http://", whose host
 is empty, and then `new URL` throws and the route rejects without redirecting.
 */
module AuthCallback {
  import opened Values

  /** The query parameters; `searchParams.get` yields NULL for an absent one. */
  datatype Params = Params(token: Option<string>, otpType: Option<string>,
                           code: Option<string>, next: Option<string>)

  /** The Supabase call the route makes, if any. */
  datatype Exchange =
    | VerifyOtp(tokenHash: string, otpType: string)
    | ExchangeCode(code: string)
    | NoExchange

  /** The call made, and either the location redirected to or the reference
      `new URL` could not resolve, in which case GET throws. */
  datatype Outcome =
    | Redirect(call: Exchange, location: string)
    | Throws(call: Exchange, reference: string)

  /** JavaScript truthiness of a string-or-null: present and non-empty. */
  predicate Truthy(s: Option<string>)
  {
    s.Some? && |s.value| > 0
  }

  /** `searchParams.get('next') ?? '/'`: only an absent parameter falls back;
      an empty one is kept. */
  function NextOrRoot(next: Option<string>): (r: string)
    ensures next.None? ==> r == "/"
    ensures next.Some? ==> r == next.value
  {
    match next
    case Some(n) => n
    case None => "/"
  }

  /** The call the route's branch selection makes: OTP verification when both
      token and type are truthy, else code exchange when the code is truthy. */
  function Select(p: Params): (e: Exchange)
    ensures e.VerifyOtp? <==> Truthy(p.token) && Truthy(p.otpType)
    ensures e.ExchangeCode? <==> !(Truthy(p.token) && Truthy(p.otpType)) && Truthy(p.code)
    ensures e.VerifyOtp? ==> e == VerifyOtp(p.token.value, p.otpType.value)
    ensures e.ExchangeCode? ==> e == ExchangeCode(p.code.value)
  {
    if Truthy(p.token) && Truthy(p.otpType) then VerifyOtp(p.token.value, p.otpType.value)
    else if Truthy(p.code) then ExchangeCode(p.code.value)
    else NoExchange
  }

  /** Whether the selected call reported an error. */
  predicate Failed(e: Exchange, otpFails: (string, string) -> bool, codeFails: string -> bool)
  {
    match e
    case VerifyOtp(t, ty) => otpFails(t, ty)
    case ExchangeCode(c) => codeFails(c)
    case NoExchange => false
  }

  /** `GET(request)`: an error from the selected call sends the visitor to
      "/login"; otherwise, including when no call is made, to `next`, provided
      `resolves` says `new URL` accepts it against the request URL. "/login"
      is an absolute path, which always resolves. */
  function Callback(p: Params, otpFails: (string, string) -> bool, codeFails: string -> bool,
                    resolves: string -> bool): (r: Outcome)
    ensures r.call == Select(p)
    ensures Failed(r.call, otpFails, codeFails) ==> r == Redirect(r.call, "/login")
    ensures !Failed(r.call, otpFails, codeFails) && resolves(NextOrRoot(p.next)) ==>
      r == Redirect(r.call, NextOrRoot(p.next))
    ensures !Failed(r.call, otpFails, codeFails) && !resolves(NextOrRoot(p.next)) ==>
      r == Throws(r.call, NextOrRoot(p.next))
  {
    var call := Select(p);
    var next := NextOrRoot(p.next);
    if Failed(call, otpFails, codeFails) then Redirect(call, "/login")
    else if resolves(next) then Redirect(call, next)
    else Throws(call, next)
  }

  /** With truthy token and type the OTP branch runs and the code plays no part. */
  lemma OtpBranchIgnoresCode(p: Params, code: Option<string>, otpFails: (string, string) -> bool,
                             codeFails: string -> bool, resolves: string -> bool)
    requires Truthy(p.token) && Truthy(p.otpType)
    ensures Callback(p, otpFails, codeFails, resolves).call == VerifyOtp(p.token.value, p.otpType.value)
    ensures Callback(p.(code := code), otpFails, codeFails, resolves) == Callback(p, otpFails, codeFails, resolves)
  {
  }

  /** A token without a (non-empty) type does not start OTP verification: the
      route falls through to the code branch. */
  lemma TokenWithoutTypeFallsThrough(p: Params, otpFails: (string, string) -> bool, codeFails: string -> bool,
                                     resolves: string -> bool)
    requires Truthy(p.token) && !Truthy(p.otpType)
    requires resolves(NextOrRoot(p.next))
    ensures Truthy(p.code) ==> Callback(p, otpFails, codeFails, resolves).call == ExchangeCode(p.code.value)
    ensures !Truthy(p.code) ==> Callback(p, otpFails, codeFails, resolves) == Redirect(NoExchange, NextOrRoot(p.next))
  {
  }

  /** The redirect location: "/login" exactly on a failed call, `next ?? "/"`
      otherwise; an empty `next` is kept and an absent one becomes "/". A
      `next` the URL parser cannot resolve makes GET throw unless the call
      failed. */
  lemma CallbackLocation(p: Params, otpFails: (string, string) -> bool, codeFails: string -> bool,
                         resolves: string -> bool)
    ensures var r := Callback(p, otpFails, codeFails, resolves);
      && (r.call.VerifyOtp? && otpFails(r.call.tokenHash, r.call.otpType) ==> r == Redirect(r.call, "/login"))
      && (r.call.ExchangeCode? && codeFails(r.call.code) ==> r == Redirect(r.call, "/login"))
      && (r.Redirect? && r.location != "/login" ==> !Failed(r.call, otpFails, codeFails))
      && (r.call.NoExchange? ==> (r.Redirect? <==> resolves(NextOrRoot(p.next))))
      && (r.Throws? <==> !Failed(r.call, otpFails, codeFails) && !resolves(NextOrRoot(p.next)))
      && (r.Throws? ==> r.reference == NextOrRoot(p.next))
      && (p.next.None? && r.Redirect? && !Failed(r.call, otpFails, codeFails) ==> r.location == "/")
      && (p.next == Some("") && r.Redirect? && !Failed(r.call, otpFails, codeFails) ==> r.location == "")
  {
  }

  /** A `next` with an empty host, such as "//", makes the route throw after a
      successful exchange or when no exchange is made, and a failed exchange
      still redirects to "/login". */
  lemma UnresolvableNextThrows(p: Params, otpFails: (string, string) -> bool, codeFails: string -> bool,
                               resolves: string -> bool)
    requires p.next == Some("//") && !resolves("//")
    ensures var r := Callback(p, otpFails, codeFails, resolves);
      && (Failed(Select(p), otpFails, codeFails) ==> r == Redirect(Select(p), "/login"))
      && (!Failed(Select(p), otpFails, codeFails) ==> r == Throws(Select(p), "//"))
  {
  }
}

=== FILE: http.dfy ===
/**
 The request vocabulary the gating code works with: a request URL split into
 the parts that matter here, the two responses a middleware can give, and the
 path-prefix test both middlewares use to recognise the login and register pages.
 */
module Http {

  /** A request URL. Only the path decides anything; the other parts are
      carried so that a redirect can be seen to keep or drop them. */
  datatype Url = Url(origin: string, pathname: string, search: string, hash: string)

  /** A middleware lets the request through or redirects it. */
  datatype Response = Next | Redirect(location: Url)

  /** JavaScript's `s.startsWith(prefix)`. */
  predicate StartsWith(s: string, prefix: string)
  {
    |prefix| <= |s| && s[..|prefix|] == prefix
  }

  /** A path that begins with "/login" or "/register": the authentication pages.
      The test is a bare prefix test, so "/loginx" and "/register/extra" count too. */
  predicate IsAuthPath(path: string)
  {
    StartsWith(path, "/login") || StartsWith(path, "/register")
  }

  /** `new URL(path, base)` for an absolute path with no query or fragment:
      the base's origin with that path and nothing else. */
  function AtPath(base: Url, path: string): (u: Url)
    requires StartsWith(path, "/")
    ensures u.origin == base.origin && u.pathname == path
    ensures u.search == "" && u.hash == ""
  {
    Url(base.origin, path, "", "")
  }

  /** The prefix test on sample paths: exactly the paths beginning with one of
      the two prefixes count, including ones that merely extend them. */
  lemma AuthPathExamples()
    ensures IsAuthPath("/login") && IsAuthPath("/register")
    ensures IsAuthPath("/loginx") && IsAuthPath("/register/confirm")
    ensures !IsAuthPath("/") && !IsAuthPath("/logi") && !IsAuthPath("/api/login")
  {
    assert "/loginx"[..6] == "/login";
    assert "/register/confirm"[..9] == "/register";
    assert "/api/login"[..6][1] != "/login"[1];
    assert "/api/login"[..9][1] != "/register"[1];
  }
}

=== FILE: middleware.dfy ===
/**
 The root middleware of middleware.ts: with a session, the authentication
 pages send the visitor home; without one, everything but the authentication
 pages and "/" sends the visitor to the login page. The session lookup is an
 input: whether `getSession()` yielded a session.
 */
module RootMiddleware {
  import opened Http

  /** The routing decision of `middleware(req)`. */
  function Middleware(hasSession: bool, req: Url): (r: Response)
    ensures r.Redirect? ==> r.location.origin == req.origin
    ensures r.Redirect? ==> r.location.search == "" && r.location.hash == ""
  {
    var isAuthPage := IsAuthPath(req.pathname);
    if hasSession && isAuthPage then Redirect(AtPath(req, "/"))
    else if !hasSession && !isAuthPage && req.pathname != "/" then Redirect(AtPath(req, "/login"))
    else Next
  }

  /** Where each kind of visitor may stay: a signed-in visitor anywhere but the
      authentication pages, a visitor without a session only on those pages
      and on "/". */
  predicate MayStay(hasSession: bool, path: string)
  {
    if hasSession then !IsAuthPath(path) else IsAuthPath(path) || path == "/"
  }

  /** The middleware lets a request through exactly when the visitor may stay
      on its path; otherwise it redirects, to "/" with a session and to
      "/login" without. */
  lemma MiddlewareMatchesPolicy(hasSession: bool, req: Url)
    ensures Middleware(hasSession, req) == Next <==> MayStay(hasSession, req.pathname)
    ensures Middleware(hasSession, req).Redirect? && hasSession ==> Middleware(hasSession, req).location.pathname == "/"
    ensures Middleware(hasSession, req).Redirect? && !hasSession ==> Middleware(hasSession, req).location.pathname == "/login"
  {
  }

  /** The four cases one by one. */
  lemma MiddlewareCases(hasSession: bool, req: Url)
    ensures hasSession && IsAuthPath(req.pathname) ==> Middleware(hasSession, req) == Redirect(Url(req.origin, "/", "", ""))
    ensures hasSession && !IsAuthPath(req.pathname) ==> Middleware(hasSession, req) == Next
    ensures !hasSession && req.pathname == "/" ==> Middleware(hasSession, req) == Next
    ensures !hasSession && IsAuthPath(req.pathname) ==> Middleware(hasSession, req) == Next
    ensures !hasSession && !IsAuthPath(req.pathname) && req.pathname != "/" ==> Middleware(hasSession, req) == Redirect(Url(req.origin, "/login", "", ""))
  {
  }

  /** No redirect loop: a redirected request, replayed against its target with
      the same session state, is let through. */
  lemma MiddlewareNoLoop(hasSession: bool, req: Url)
    ensures Middleware(hasSession, req).Redirect? ==> Middleware(hasSession, Middleware(hasSession, req).location) == Next
  {
  }
}

=== FILE: queries.dfy ===
/**
 The chat queries of lib/db/queries.ts as pure operations on the database of
 module Schema. A query the database refuses yields `Err` and leaves the
 database as it was; the source only logs such an error and rethrows it.
 */
module Queries {
  import opened Values
  import opened Tables
  import opened Schema
  import opened UuidText

  // ---------------------------------------------------------------------------
  // Reads
  // ---------------------------------------------------------------------------

  function HasEmail(email: string): User -> bool
  {
    (u: User) => u.email == email
  }

  function HasMessageId(id: Uuid): Message -> bool
  {
    (m: Message) => m.id == id
  }

  /** `getUser(email)`: every user whose email is `email`, each as often as it
      is stored. `email` is not unique, so there may be several. An email
      holding U+0000 cannot be sent as text, and the statement fails. */
  function GetUser(db: Db, email: string): (r: Result<seq<User>, DbError>)
    ensures r.Err? <==> '\0' in email
    ensures r.Err? ==> r.error == NulInText
    ensures r.Ok? ==> forall u :: u in r.value <==> u in db.users && u.email == email
    ensures r.Ok? ==> forall u :: multiset(r.value)[u] == if u.email == email then multiset(db.users)[u] else 0
  {
    if '\0' in email then Err(NulInText) else Ok(Filter(db.users, HasEmail(email)))
  }

  /** Two users may share an email, and `getUser` then returns both. */
  lemma GetUserMayReturnSeveral()
    ensures var a := User("a", "x@example.com", "A", "member", None, None, 0, 0);
            var b := User("b", "x@example.com", "B", "member", None, None, 0, 0);
            var db := Db([], [a, b], [], [], [], [], []);
            Valid(db) && GetUser(db, "x@example.com") == Ok([a, b])
  {
    var a := User("a", "x@example.com", "A", "member", None, None, 0, 0);
    var b := User("b", "x@example.com", "B", "member", None, None, 0, 0);
    var db := Db([], [a, b], [], [], [], [], []);
    var e := "x@example.com";
    assert '\0' !in e by {
      assert forall k :: 0 <= k < |e| ==> e[k] != '\0';
    }
    assert Filter(db.users, HasEmail(e)) == [a, b];
  }

  /** An email holding U+0000 makes `getUser` fail; one without it is looked
      up. */
  lemma GetUserRefusesNul(db: Db)
    ensures GetUser(db, "a\0b@example.com") == Err(NulInText)
    ensures GetUser(db, "a@example.com").Ok?
  {
  }

  /** `getMessageById(id)`: the messages whose key is the uuid `id` spells,
      whatever the case of its letters. Text that is not a uuid makes the
      statement fail. */
  function GetMessageById(db: Db, id: string): (r: Result<seq<Message>, DbError>)
    ensures r.Err? <==> ParseUuid(id).None?
    ensures r.Err? ==> r.error == InvalidUuid(id)
    ensures r.Ok? ==> forall m :: m in r.value <==> m in db.messages && Some(m.id) == ParseUuid(id)
  {
    match ParseUuid(id)
    case None => Err(InvalidUuid(id))
    case Some(key) => Ok(Filter(db.messages, HasMessageId(key)))
  }

  /** Because `id` is the primary key, `getMessageById` returns at most one row,
      and exactly one when a message with that key exists. */
  lemma GetMessageByIdAtMostOne(db: Db, id: string)
    requires Valid(db)
    ensures var r := GetMessageById(db, id);
      r.Ok? ==> |r.value| <= 1 && (ParseUuid(id).value in MessageIds(db) <==> |r.value| == 1)
  {
    if ParseUuid(id).Some? {
      MessageKeyMatchesAtMostOne(db, ParseUuid(id).value);
    }
  }

  /** At most one message has a given key, and one does iff the key is stored. */
  lemma MessageKeyMatchesAtMostOne(db: Db, key: Uuid)
    requires Valid(db)
    ensures var r := Filter(db.messages, HasMessageId(key));
      |r| <= 1 && (key in MessageIds(db) <==> |r| == 1)
  {
    var r := Filter(db.messages, HasMessageId(key));
    FilterKeepsUnique(db.messages, HasMessageId(key), MessageKey);
    assert |r| >= 2 ==> MessageKey(r[0]) != MessageKey(r[1]);
    forall i | 0 <= i < |r| ensures MessageKey(r[i]) == key {
      assert r[i] in r;
    }
    if key in MessageIds(db) {
      var i :| 0 <= i < |db.messages| && db.messages[i].id == key;
      assert db.messages[i] in r;
    }
    if |r| == 1 {
      assert r[0] in r;
      assert r[0] in db.messages;
      var i :| 0 <= i < |db.messages| && db.messages[i] == r[0];
      assert MessageKey(db.messages[i]) == key;
    }
  }

  /** Spellings that differ only in letter case find the same messages, and a
      stored message is found by the upper-case spelling of its key. */
  lemma GetMessageByIdIgnoresCase(db: Db, a: string, b: string)
    requires SameUpToCase(a, b)
    ensures GetMessageById(db, a).Ok? <==> GetMessageById(db, b).Ok?
    ensures GetMessageById(db, a).Ok? ==> GetMessageById(db, a).value == GetMessageById(db, b).value
  {
    ParseIgnoresCase(a, b);
  }

  /** The upper-case spelling of a stored message's key finds that message. */
  lemma GetMessageByUpperCaseKey(db: Db, m: Message)
    requires m in db.messages && IsCanonical(m.id)
    ensures GetMessageById(db, Upper(m.id)).Ok?
    ensures m in GetMessageById(db, Upper(m.id)).value
  {
    UpperCaseNamesSameKey(m.id);
  }

  /** Text that is not a uuid is refused. */
  lemma GetMessageByIdRefusesText(db: Db)
    ensures GetMessageById(db, "not-a-uuid") == Err(InvalidUuid("not-a-uuid"))
  {
    ParseExamples();
  }

  // ---------------------------------------------------------------------------
  // deleteMessagesByChatIdAfterTimestamp
  // ---------------------------------------------------------------------------

  /** The rows the delete targets: in conversation `chatId`, created at or after `t`.
      A message with no conversation never matches, as `NULL = chatId` is not true. */
  predicate Doomed(m: Message, chatId: Uuid, t: Timestamp)
  {
    m.conversationId == Some(chatId) && m.createdAt >= t
  }

  function SurvivesDelete(chatId: Uuid, t: Timestamp): Message -> bool
  {
    (m: Message) => !Doomed(m, chatId, t)
  }

  /** The scoped delete for a key already read as a uuid. Nothing references
      a message, so no foreign key refuses it; it touches the message table only. */
  function DeleteScope(db: Db, chatId: Uuid, t: Timestamp): (r: Db)
    ensures r == db.(messages := r.messages)
    ensures forall m :: m in r.messages <==> m in db.messages && !Doomed(m, chatId, t)
  {
    db.(messages := Filter(db.messages, SurvivesDelete(chatId, t)))
  }

  /** `deleteMessagesByChatIdAfterTimestamp(chatId, t)`. `chatId` is text;
      text that is not a uuid makes the statement fail, and otherwise the
      delete removes the messages of the conversation it names. */
  function DeleteMessagesByChatIdAfterTimestamp(db: Db, chatId: string, t: Timestamp): (r: Result<Db, DbError>)
    ensures r.Err? <==> ParseUuid(chatId).None?
    ensures r.Err? ==> r.error == InvalidUuid(chatId)
    ensures r.Ok? ==> r.value == db.(messages := r.value.messages)
    ensures r.Ok? ==> forall m :: m in r.value.messages <==> m in db.messages && !Doomed(m, ParseUuid(chatId).value, t)
  {
    match ParseUuid(chatId)
    case None => Err(InvalidUuid(chatId))
    case Some(c) => Ok(DeleteScope(db, c, t))
  }

  /** The delete removes exactly the messages of the conversation `chatId`
      names created at or after `t`: every such row is gone, and every other
      row keeps its multiplicity, in particular every row of another
      conversation and every earlier row. */
  lemma DeleteMessagesRemovesExactlyScope(db: Db, chatId: string, t: Timestamp)
    ensures var r := DeleteMessagesByChatIdAfterTimestamp(db, chatId, t);
      r.Ok? ==>
      var c := ParseUuid(chatId).value;
      && (forall m :: m in db.messages && m.conversationId == Some(c) && m.createdAt >= t ==> m !in r.value.messages)
      && (forall m: Message :: m.conversationId != Some(c) ==> multiset(r.value.messages)[m] == multiset(db.messages)[m])
      && (forall m: Message :: m.createdAt < t ==> multiset(r.value.messages)[m] == multiset(db.messages)[m])
      && |r.value.messages| == |db.messages| - |GetScope(db.messages, c, t)|
  {
    if ParseUuid(chatId).Some? {
      SplitCount(db.messages, ParseUuid(chatId).value, t);
    }
  }

  /** The rows a scoped delete would remove. */
  function GetScope(s: seq<Message>, chatId: Uuid, t: Timestamp): (r: seq<Message>)
    ensures forall m :: m in r <==> m in s && Doomed(m, chatId, t)
  {
    Filter(s, (m: Message) => Doomed(m, chatId, t))
  }

  /** Every row is either removed or kept by the scoped delete. */
  lemma {:induction false} SplitCount(s: seq<Message>, chatId: Uuid, t: Timestamp)
    ensures |Filter(s, SurvivesDelete(chatId, t))| + |GetScope(s, chatId, t)| == |s|
  {
    if |s| > 0 {
      SplitCount(s[1..], chatId, t);
    }
  }

  /** Running the delete a second time with the same arguments changes nothing. */
  lemma DeleteMessagesIdempotent(db: Db, chatId: string, t: Timestamp)
    ensures var once := DeleteMessagesByChatIdAfterTimestamp(db, chatId, t);
      once.Ok? ==> DeleteMessagesByChatIdAfterTimestamp(once.value, chatId, t) == once
  {
    if ParseUuid(chatId).Some? {
      FilterIdempotent(db.messages, SurvivesDelete(ParseUuid(chatId).value, t));
    }
  }

  /** The delete keeps the database consistent. */
  lemma DeleteMessagesPreservesValid(db: Db, chatId: string, t: Timestamp)
    requires Valid(db)
    ensures var r := DeleteMessagesByChatIdAfterTimestamp(db, chatId, t);
      r.Ok? ==> Valid(r.value)
  {
    if ParseUuid(chatId).Some? {
      var keep := SurvivesDelete(ParseUuid(chatId).value, t);
      FilterKeepsUnique(db.messages, keep, MessageKey);
      FilterKeepsRefs(db.messages, keep, MessageConversation, ConversationIds(db));
      FilterKeepsRefs(db.messages, keep, MessageSender, UserIds(db));
    }
  }

  // ---------------------------------------------------------------------------
  // saveMessages
  // ---------------------------------------------------------------------------

  /** One element of the array `saveMessages` receives; `chatId` is text. */
  datatype ChatMessage = ChatMessage(chatId: string, content: string, role: string)

  /** The position of the first absent value, or `|xs|` when none is. */
  function FirstNone<T>(xs: seq<Option<T>>): (k: nat)
    ensures k <= |xs|
    ensures forall j :: 0 <= j < k ==> xs[j].Some?
    ensures k < |xs| ==> xs[k].None?
  {
    if |xs| == 0 || xs[0].None? then 0 else 1 + FirstNone(xs[1..])
  }

  /** The values `read` gives the texts, in order, or the first text it
      refuses: Postgres reads a statement's parameters in order and reports
      the first it cannot read. */
  function ReadAll<T>(texts: seq<string>, read: string -> Option<T>): (r: Result<seq<T>, string>)
    ensures r.Ok? <==> forall i :: 0 <= i < |texts| ==> read(texts[i]).Some?
    ensures r.Ok? ==> |r.value| == |texts|
    ensures r.Ok? ==> forall i :: 0 <= i < |texts| ==> Some(r.value[i]) == read(texts[i])
    ensures r.Err? ==> exists i ::
      && 0 <= i < |texts|
      && r.error == texts[i]
      && read(texts[i]).None?
      && forall j :: 0 <= j < i ==> read(texts[j]).Some?
  {
    var parsed := seq(|texts|, i requires 0 <= i < |texts| => read(texts[i]));
    var k := FirstNone(parsed);
    assert forall i :: 0 <= i < |texts| ==> parsed[i] == read(texts[i]);
    if k < |texts| then Err(texts[k])
    else Ok(seq(|texts|, i requires 0 <= i < |texts| => parsed[i].value))
  }

  /** A single text `read` accepts is read as its value. */
  lemma ReadOne<T>(text: string, read: string -> Option<T>, v: T)
    requires read(text) == Some(v)
    ensures ReadAll([text], read) == Ok([v])
  {
    var r := ReadAll([text], read);
    assert r.Ok? && |r.value| == 1 && Some(r.value[0]) == read([text][0]);
    assert r.value == [v];
  }

  /** The chat texts of a batch, in order. */
  function ChatTexts(batch: seq<ChatMessage>): (texts: seq<string>)
    ensures |texts| == |batch| && forall i :: 0 <= i < |batch| ==> texts[i] == batch[i].chatId
  {
    seq(|batch|, i requires 0 <= i < |batch| => batch[i].chatId)
  }

  /** The chats of a batch read as uuid values: all of them, each the value
      its text spells, or the first text that is not a uuid. */
  lemma ReadChats(batch: seq<ChatMessage>)
    ensures var r := ReadAll(ChatTexts(batch), ParseUuid);
      && (r.Ok? <==> forall i :: 0 <= i < |batch| ==> ParseUuid(batch[i].chatId).Some?)
      && (r.Ok? ==> |r.value| == |batch| && forall i :: 0 <= i < |batch| ==> Some(r.value[i]) == ParseUuid(batch[i].chatId))
      && (r.Err? ==> exists i ::
        && 0 <= i < |batch|
        && r.error == batch[i].chatId
        && ParseUuid(batch[i].chatId).None?
        && forall j :: 0 <= j < i ==> ParseUuid(batch[j].chatId).Some?)
  {
    var texts := ChatTexts(batch);
    var r := ReadAll(texts, ParseUuid);
    if r.Err? {
      var i :| 0 <= i < |texts| && r.error == texts[i] && ParseUuid(texts[i]).None?
        && forall j :: 0 <= j < i ==> ParseUuid(texts[j]).Some?;
      assert texts[i] == batch[i].chatId;
    }
  }

  /** The row stored for `m` in chat `chat`: the chat becomes the conversation,
      the content and role are copied, the sender is left NULL. */
  function MessageRow(m: ChatMessage, chat: Uuid, gen: Fresh): (row: Message)
    ensures row.id == gen.id && row.createdAt == gen.at
    ensures row.conversationId == Some(chat) && row.senderId.None?
    ensures row.content == Some(m.content) && row.role == Some(m.role)
  {
    Message(gen.id, Some(chat), None, Some(m.role), Some(m.content), gen.at)
  }

  /** The rows of a batch, one per element, in order. */
  function MessageRows(batch: seq<ChatMessage>, chats: seq<Uuid>, gens: seq<Fresh>): (rows: seq<Message>)
    requires |gens| == |batch| && |chats| == |batch|
    ensures |rows| == |batch|
    ensures forall i :: 0 <= i < |batch| ==> rows[i] == MessageRow(batch[i], chats[i], gens[i])
  {
    seq(|batch|, i requires 0 <= i < |batch| => MessageRow(batch[i], chats[i], gens[i]))
  }

  /** Whether two of the generated keys coincide. */
  predicate GeneratedKeysClash(gens: seq<Fresh>)
  {
    exists i, j :: 0 <= i < j < |gens| && gens[i].id == gens[j].id
  }

  /** Whether a generated key is already the key of a stored message. */
  predicate GeneratedKeyTaken(db: Db, gens: seq<Fresh>)
    ensures GeneratedKeyTaken(db, gens) <==> exists i :: 0 <= i < |gens| && gens[i].id in MessageIds(db)
  {
    exists i, j :: 0 <= i < |gens| && 0 <= j < |db.messages| && db.messages[j].id == gens[i].id
  }

  /** Whether a conversation has the key `c`. */
  predicate HasConversation(db: Db, c: Uuid)
    ensures HasConversation(db, c) <==> c in ConversationIds(db)
  {
    exists j :: 0 <= j < |db.conversations| && db.conversations[j].id == c
  }

  /** Whether one of the chats does not exist. */
  predicate ChatMissing(db: Db, chats: seq<Uuid>)
    ensures ChatMissing(db, chats) <==> exists i :: 0 <= i < |chats| && chats[i] !in ConversationIds(db)
  {
    exists i :: 0 <= i < |chats| && !HasConversation(db, chats[i])
  }

  /** Whether an element of the batch names, by a uuid, a chat that does not
      exist. */
  ghost predicate NamesMissingChat(db: Db, batch: seq<ChatMessage>)
  {
    exists i :: 0 <= i < |batch| && ParseUuid(batch[i].chatId).Some?
      && ParseUuid(batch[i].chatId).value !in ConversationIds(db)
  }

  /** The multi-row insert of a batch whose chats are read as `chats`. It is
      refused when a key is taken or repeated, or when a chat does not exist
      (`messages.conversation_id` is a foreign key). */
  function InsertMessages(db: Db, batch: seq<ChatMessage>, chats: seq<Uuid>, gens: seq<Fresh>): (r: Result<Db, DbError>)
    requires |gens| == |batch| && |chats| == |batch|
    ensures r.Err? <==>
      || GeneratedKeysClash(gens)
      || (exists i :: 0 <= i < |gens| && gens[i].id in MessageIds(db))
      || (exists i :: 0 <= i < |chats| && chats[i] !in ConversationIds(db))
    ensures r.Err? ==> r.error == UniqueViolation(Messages) || r.error == ForeignKeyViolation(MessagesConversationId)
    ensures r.Ok? ==> r.value == db.(messages := r.value.messages)
    ensures r.Ok? ==> |r.value.messages| == |db.messages| + |batch|
    ensures r.Ok? ==> r.value.messages[..|db.messages|] == db.messages
    ensures r.Ok? ==> forall i :: 0 <= i < |batch| ==>
      var row := r.value.messages[|db.messages| + i];
      && row.conversationId == Some(chats[i])
      && row.content == Some(batch[i].content)
      && row.role == Some(batch[i].role)
      && row.senderId.None?
      && row.id == gens[i].id
      && row.createdAt == gens[i].at
  {
    if GeneratedKeysClash(gens) || GeneratedKeyTaken(db, gens) then Err(UniqueViolation(Messages))
    else if ChatMissing(db, chats) then Err(ForeignKeyViolation(MessagesConversationId))
    else
      var rows := MessageRows(batch, chats, gens);
      assert forall i :: 0 <= i < |batch| ==> (db.messages + rows)[|db.messages| + i] == rows[i];
      Ok(db.(messages := db.messages + rows))
  }

  /** Whether the content or role of some element holds U+0000. */
  predicate HoldsNul(batch: seq<ChatMessage>)
  {
    exists i :: 0 <= i < |batch| && ('\0' in batch[i].content || '\0' in batch[i].role)
  }

  /** `saveMessages(batch)`: one multi-row insert, all or nothing. `gens`
      supplies the uuid and clock reading the source draws for each row.
      An empty batch is refused by the insert builder; chat text that is not a
      uuid, and content or role holding U+0000, make the statement fail.
      Otherwise the insert runs on the chats' values, so any spelling of a
      chat's key names that chat. */
  function SaveMessages(db: Db, batch: seq<ChatMessage>, gens: seq<Fresh>): (r: Result<Db, DbError>)
    requires |gens| == |batch|
    ensures |batch| == 0 ==> r == Err(EmptyInsert)
    ensures r.Err? && r.error.InvalidUuid? <==>
      |batch| > 0 && exists i :: 0 <= i < |batch| && ParseUuid(batch[i].chatId).None?
    ensures r.Err? && r.error.InvalidUuid? ==> exists i ::
      && 0 <= i < |batch|
      && r.error.text == batch[i].chatId
      && ParseUuid(batch[i].chatId).None?
      && forall j :: 0 <= j < i ==> ParseUuid(batch[j].chatId).Some?
    ensures r.Err? && r.error == NulInText <==>
      && |batch| > 0
      && (forall i :: 0 <= i < |batch| ==> ParseUuid(batch[i].chatId).Some?)
      && HoldsNul(batch)
    ensures r.Err? ==>
      || r.error.InvalidUuid?
      || r.error in {EmptyInsert, NulInText, UniqueViolation(Messages), ForeignKeyViolation(MessagesConversationId)}
    ensures r.Ok? ==> r.value == db.(messages := r.value.messages)
    ensures r.Ok? ==> |r.value.messages| == |db.messages| + |batch|
    ensures r.Ok? ==> r.value.messages[..|db.messages|] == db.messages
    ensures r.Ok? ==> forall i :: 0 <= i < |batch| ==>
      var row := r.value.messages[|db.messages| + i];
      && row.conversationId == ParseUuid(batch[i].chatId)
      && row.content == Some(batch[i].content)
      && row.role == Some(batch[i].role)
      && row.senderId.None?
      && row.id == gens[i].id
      && row.createdAt == gens[i].at
  {
    ReadChats(batch);
    if |batch| == 0 then Err(EmptyInsert)
    else match ReadAll(ChatTexts(batch), ParseUuid)
      case Err(text) => Err(InvalidUuid(text))
      case Ok(chats) => if HoldsNul(batch) then Err(NulInText) else InsertMessages(db, batch, chats, gens)
  }

  /** Exactly when `saveMessages` refuses a batch: it is empty, a chat text is
      not a uuid, a content or role holds U+0000, a generated key is repeated
      or taken, or a chat's uuid names no conversation. */
  lemma SaveMessagesRefusedIff(db: Db, batch: seq<ChatMessage>, gens: seq<Fresh>)
    requires |gens| == |batch|
    ensures SaveMessages(db, batch, gens).Err? <==>
      || |batch| == 0
      || (exists i :: 0 <= i < |batch| && ParseUuid(batch[i].chatId).None?)
      || HoldsNul(batch)
      || GeneratedKeysClash(gens)
      || (exists i :: 0 <= i < |gens| && gens[i].id in MessageIds(db))
      || NamesMissingChat(db, batch)
  {
    ReadChats(batch);
    var read := ReadAll(ChatTexts(batch), ParseUuid);
    if |batch| > 0 && read.Ok? && !HoldsNul(batch) {
      var chats := read.value;
      if i :| 0 <= i < |chats| && chats[i] !in ConversationIds(db) {
        assert ParseUuid(batch[i].chatId) == Some(chats[i]);
      }
      if i :| 0 <= i < |batch| && ParseUuid(batch[i].chatId).Some? && ParseUuid(batch[i].chatId).value !in ConversationIds(db) {
        assert ParseUuid(batch[i].chatId) == Some(chats[i]);
      }
    }
  }

  /** An accepted insert keeps the database consistent. */
  lemma InsertMessagesPreservesValid(db: Db, batch: seq<ChatMessage>, chats: seq<Uuid>, gens: seq<Fresh>)
    requires |gens| == |batch| && |chats| == |batch|
    requires Valid(db)
    ensures var r := InsertMessages(db, batch, chats, gens);
      r.Ok? ==> Valid(r.value)
  {
    var r := InsertMessages(db, batch, chats, gens);
    if r.Ok? {
      var d := r.value;
      var rows := d.messages[|db.messages|..];
      assert d.messages == db.messages + rows;
      forall i | 0 <= i < |rows| ensures rows[i].id == gens[i].id && rows[i].conversationId == Some(chats[i]) {
        assert rows[i] == d.messages[|db.messages| + i];
      }
      assert UniqueKeys(rows, MessageKey) by {
        forall i, j | 0 <= i < j < |rows| ensures MessageKey(rows[i]) != MessageKey(rows[j]) {
          assert !GeneratedKeysClash(gens);
        }
      }
      assert MessageIds(db) !! Keys(rows, MessageKey) by {
        forall x | x in Keys(rows, MessageKey) ensures x !in MessageIds(db) {
          var i :| 0 <= i < |rows| && MessageKey(rows[i]) == x;
        }
      }
      AppendKeys(db.messages, rows, MessageKey);
      forall i | 0 <= i < |d.messages|
        ensures Resolves(MessageConversation(d.messages[i]), ConversationIds(d))
        ensures Resolves(MessageSender(d.messages[i]), UserIds(d))
      {
        if i >= |db.messages| {
          assert d.messages[i] == rows[i - |db.messages|];
        } else {
          assert d.messages[i] == db.messages[i];
        }
      }
    }
  }

  /** An accepted batch keeps the database consistent. */
  lemma SaveMessagesPreservesValid(db: Db, batch: seq<ChatMessage>, gens: seq<Fresh>)
    requires |gens| == |batch|
    requires Valid(db)
    ensures var r := SaveMessages(db, batch, gens);
      r.Ok? ==> Valid(r.value)
  {
    var read := ReadAll(ChatTexts(batch), ParseUuid);
    if |batch| > 0 && read.Ok? {
      InsertMessagesPreservesValid(db, batch, read.value, gens);
    }
  }

  /** Chat text is read as a uuid: any text that spells an existing chat's
      key stores the message under that chat. */
  lemma SaveMessagesBySpelling(db: Db, c: Conversation, text: string, content: string, role: string, gen: Fresh)
    requires c in db.conversations && ParseUuid(text) == Some(c.id)
    requires '\0' !in content && '\0' !in role
    requires gen.id !in MessageIds(db)
    ensures var r := SaveMessages(db, [ChatMessage(text, content, role)], [gen]);
      r.Ok? && r.value.messages == db.messages + [Message(gen.id, Some(c.id), None, Some(role), Some(content), gen.at)]
  {
    var batch := [ChatMessage(text, content, role)];
    assert ChatTexts(batch) == [text];
    ReadOne(text, ParseUuid, c.id);
    assert !HoldsNul(batch);
    SaveMessagesReachesInsert(db, batch, [c.id], [gen]);
    assert ConversationKey(c) in ConversationIds(db);
    InsertOneMessage(db, batch[0], c.id, gen);
  }

  /** A non-empty batch whose chats all read as uuids and whose texts hold no
      U+0000 goes on to the insert. */
  lemma SaveMessagesReachesInsert(db: Db, batch: seq<ChatMessage>, chats: seq<Uuid>, gens: seq<Fresh>)
    requires |batch| > 0 && |gens| == |batch|
    requires ReadAll(ChatTexts(batch), ParseUuid) == Ok(chats) && !HoldsNul(batch)
    ensures |chats| == |batch|
    ensures SaveMessages(db, batch, gens) == InsertMessages(db, batch, chats, gens)
  {
  }

  /** One message for an existing chat under a fresh key is stored last. */
  lemma InsertOneMessage(db: Db, m: ChatMessage, chat: Uuid, gen: Fresh)
    requires chat in ConversationIds(db) && gen.id !in MessageIds(db)
    ensures InsertMessages(db, [m], [chat], [gen]) == Ok(db.(messages := db.messages + [MessageRow(m, chat, gen)]))
  {
    assert !GeneratedKeysClash([gen]);
    var r := InsertMessages(db, [m], [chat], [gen]);
    assert r.Ok?;
    assert r.value.messages[|db.messages|] == MessageRow(m, chat, gen);
    assert r.value.messages == db.messages + [MessageRow(m, chat, gen)];
  }

  /** The upper-case spelling of an existing chat's key names that chat. */
  lemma SaveMessagesByUpperCaseChat(db: Db, c: Conversation, content: string, role: string, gen: Fresh)
    requires c in db.conversations && IsCanonical(c.id)
    requires '\0' !in content && '\0' !in role
    requires gen.id !in MessageIds(db)
    ensures var r := SaveMessages(db, [ChatMessage(Upper(c.id), content, role)], [gen]);
      r.Ok? && r.value.messages == db.messages + [Message(gen.id, Some(c.id), None, Some(role), Some(content), gen.at)]
  {
    UpperCaseNamesSameKey(c.id);
    SaveMessagesBySpelling(db, c, Upper(c.id), content, role, gen);
  }


  /** An empty batch and chat text that is not a uuid are both refused, and
      nothing is stored. */
  lemma SaveMessagesRefusals(db: Db, gen: Fresh)
    ensures SaveMessages(db, [], []) == Err(EmptyInsert)
    ensures SaveMessages(db, [ChatMessage("not-a-uuid", "hi", "user")], [gen]) == Err(InvalidUuid("not-a-uuid"))
  {
    ParseExamples();
  }

  /** Content holding U+0000 is refused even for an existing chat under a
      fresh key, and nothing is stored. */
  lemma SaveMessagesRefusesNul(db: Db, c: Conversation, text: string, gen: Fresh)
    requires c in db.conversations && ParseUuid(text) == Some(c.id)
    requires gen.id !in MessageIds(db)
    ensures SaveMessages(db, [ChatMessage(text, "a\0b", "user")], [gen]) == Err(NulInText)
  {
    var batch := [ChatMessage(text, "a\0b", "user")];
    assert ChatTexts(batch) == [text];
    ReadOne(text, ParseUuid, c.id);
    assert '\0' in batch[0].content;
  }

  // ---------------------------------------------------------------------------
  // updateConversationVisibilityById
  // ---------------------------------------------------------------------------

  function SetVisibility(chatId: Uuid, v: Visibility): Conversation -> Conversation
  {
    (c: Conversation) => if c.id == chatId then c.(visibility := Some(v)) else c
  }

  /** `updateConversationVisibilityById(chatId, v)`. `chatId` is text; text
      that is not a uuid makes the statement fail. Otherwise no constraint
      involves the column, so the update goes through; it touches the
      conversation table only and keeps every row at its place. */
  function UpdateConversationVisibilityById(db: Db, chatId: string, v: Visibility): (r: Result<Db, DbError>)
    ensures r.Err? <==> ParseUuid(chatId).None?
    ensures r.Err? ==> r.error == InvalidUuid(chatId)
    ensures r.Ok? ==> r.value == db.(conversations := r.value.conversations)
    ensures r.Ok? ==> |r.value.conversations| == |db.conversations|
  {
    match ParseUuid(chatId)
    case None => Err(InvalidUuid(chatId))
    case Some(c) => Ok(db.(conversations := Map(db.conversations, SetVisibility(c, v))))
  }

  /** The update sets `visibility` on the rows keyed by the uuid `chatId`
      spells and changes no other column of them, and no other row at all. */
  lemma UpdateVisibilityFrame(db: Db, chatId: string, v: Visibility)
    ensures var r := UpdateConversationVisibilityById(db, chatId, v);
      r.Ok? ==>
      var c := ParseUuid(chatId).value;
      forall i :: 0 <= i < |db.conversations| ==>
        && r.value.conversations[i].(visibility := db.conversations[i].visibility) == db.conversations[i]
        && (db.conversations[i].id == c ==> r.value.conversations[i].visibility == Some(v))
        && (db.conversations[i].id != c ==> r.value.conversations[i] == db.conversations[i])
  {
  }

  /** When no conversation has the key `chatId` spells, the update is a no-op. */
  lemma UpdateVisibilityAbsentIsNoop(db: Db, chatId: string, v: Visibility)
    requires ParseUuid(chatId).Some? && ParseUuid(chatId).value !in ConversationIds(db)
    ensures UpdateConversationVisibilityById(db, chatId, v) == Ok(db)
  {
    var c := ParseUuid(chatId).value;
    forall i | 0 <= i < |db.conversations| ensures db.conversations[i].id != c {
      assert ConversationKey(db.conversations[i]) in ConversationIds(db);
    }
    assert Map(db.conversations, SetVisibility(c, v)) == db.conversations;
  }

  /** The update keeps the database consistent. */
  lemma UpdateVisibilityPreservesValid(db: Db, chatId: string, v: Visibility)
    requires Valid(db)
    ensures var r := UpdateConversationVisibilityById(db, chatId, v);
      r.Ok? ==> Valid(r.value)
  {
    if ParseUuid(chatId).Some? {
      var f := SetVisibility(ParseUuid(chatId).value, v);
      MapKeepsKeys(db.conversations, f, ConversationKey);
      var d := Map(db.conversations, f);
      forall i | 0 <= i < |d|
        ensures ConversationUser(d[i]) == ConversationUser(db.conversations[i])
        ensures ConversationBusiness(d[i]) == ConversationBusiness(db.conversations[i])
      {
      }
    }
  }

  // ---------------------------------------------------------------------------
  // createConversation
  // ---------------------------------------------------------------------------

  /** The database after an insert together with the row `returning()` yields. */
  datatype Created = Created(db: Db, row: Conversation)

  /** The insert `createConversation` makes once its user is read as `user`.
      The stored row has that user and the title, no business, no visibility,
      and both timestamps at the insert time. It is refused when the key is
      taken or the user does not exist (`conversations.user_id` is a foreign
      key). */
  function InsertConversation(db: Db, gen: Fresh, user: Uuid, title: string): (r: Result<Created, DbError>)
    ensures r.Err? <==> gen.id in ConversationIds(db) || user !in UserIds(db)
    ensures r.Err? && gen.id in ConversationIds(db) ==> r.error == UniqueViolation(Conversations)
    ensures r.Err? && gen.id !in ConversationIds(db) ==> r.error == ForeignKeyViolation(ConversationsUserId)
    ensures r.Ok? ==> r.value.db == db.(conversations := db.conversations + [r.value.row])
    ensures r.Ok? ==> var c := r.value.row;
      && c.id == gen.id && c.userId == Some(user) && c.title == Some(title)
      && c.visibility.None? && c.businessId.None?
      && c.createdAt == gen.at && c.updatedAt == gen.at
  {
    if HasConversation(db, gen.id) then
      Err(UniqueViolation(Conversations))
    else if !(exists j :: 0 <= j < |db.users| && db.users[j].id == user) then
      Err(ForeignKeyViolation(ConversationsUserId))
    else
      var row := Conversation(gen.id, Some(user), None, Some(title), None, gen.at, gen.at);
      Ok(Created(db.(conversations := db.conversations + [row]), row))
  }

  /** `createConversation({userId, title, visibility})`. `userId` is text;
      text that is not a uuid makes the statement fail, and otherwise the row
      is inserted for the user it spells. `visibility` is accepted but never
      written, so the row's visibility is left unset. */
  function CreateConversation(db: Db, gen: Fresh, userId: string, title: string, visibility: Visibility): (r: Result<Created, DbError>)
    ensures r.Err? <==>
      || ParseUuid(userId).None?
      || gen.id in ConversationIds(db)
      || ParseUuid(userId).value !in UserIds(db)
    ensures ParseUuid(userId).None? ==> r == Err(InvalidUuid(userId))
    ensures r.Err? && ParseUuid(userId).Some? && gen.id in ConversationIds(db) ==> r.error == UniqueViolation(Conversations)
    ensures r.Err? && ParseUuid(userId).Some? && gen.id !in ConversationIds(db) ==> r.error == ForeignKeyViolation(ConversationsUserId)
    ensures r.Ok? ==> r.value.db == db.(conversations := db.conversations + [r.value.row])
    ensures r.Ok? ==> var c := r.value.row;
      && c.id == gen.id && c.userId == ParseUuid(userId) && c.title == Some(title)
      && c.visibility.None? && c.businessId.None?
      && c.createdAt == gen.at && c.updatedAt == gen.at
  {
    match ParseUuid(userId)
    case None => Err(InvalidUuid(userId))
    case Some(user) => InsertConversation(db, gen, user, title)
  }

  /** The visibility argument has no effect on the outcome. */
  lemma CreateConversationIgnoresVisibility(db: Db, gen: Fresh, userId: string, title: string, v: Visibility, w: Visibility)
    ensures CreateConversation(db, gen, userId, title, v) == CreateConversation(db, gen, userId, title, w)
  {
  }

  /** The returned row is the one row added, and it is stored last. */
  lemma CreateConversationReturnsStoredRow(db: Db, gen: Fresh, userId: string, title: string, v: Visibility)
    ensures var r := CreateConversation(db, gen, userId, title, v);
      r.Ok? ==>
        && |r.value.db.conversations| == |db.conversations| + 1
        && r.value.db.conversations[|db.conversations|] == r.value.row
        && r.value.db.conversations[..|db.conversations|] == db.conversations
  {
  }

  /** Any text that spells an existing user's key, upper-case included,
      creates the conversation for that user. */
  lemma CreateConversationBySpelling(db: Db, gen: Fresh, u: User, text: string, title: string, v: Visibility)
    requires u in db.users && ParseUuid(text) == Some(u.id)
    requires gen.id !in ConversationIds(db)
    ensures var r := CreateConversation(db, gen, text, title, v);
      r.Ok? && r.value.row.userId == Some(u.id)
  {
    assert UserKey(u) in UserIds(db);
  }

  /** An accepted insert keeps the database consistent. */
  lemma InsertConversationPreservesValid(db: Db, gen: Fresh, user: Uuid, title: string)
    requires Valid(db)
    ensures var r := InsertConversation(db, gen, user, title);
      r.Ok? ==> Valid(r.value.db)
  {
    var r := InsertConversation(db, gen, user, title);
    if r.Ok? {
      var row := r.value.row;
      assert ConversationKey([row][0]) == gen.id;
      assert Keys([row], ConversationKey) == {gen.id};
      AppendKeys(db.conversations, [row], ConversationKey);
      var d := r.value.db;
      assert ConversationIds(db) <= ConversationIds(d);
      forall i | 0 <= i < |d.conversations|
        ensures Resolves(ConversationUser(d.conversations[i]), UserIds(d))
        ensures Resolves(ConversationBusiness(d.conversations[i]), BusinessIds(d))
      {
        if i == |db.conversations| {
          assert d.conversations[i] == row;
        } else {
          assert d.conversations[i] == db.conversations[i];
        }
      }
    }
  }

  /** An accepted `createConversation` keeps the database consistent. */
  lemma CreateConversationPreservesValid(db: Db, gen: Fresh, userId: string, title: string, v: Visibility)
    requires Valid(db)
    ensures var r := CreateConversation(db, gen, userId, title, v);
      r.Ok? ==> Valid(r.value.db)
  {
    if ParseUuid(userId).Some? {
      InsertConversationPreservesValid(db, gen, ParseUuid(userId).value, title);
    }
  }
}

=== FILE: schema.dfy ===
/**
 The tenant database of lib/db/schema.ts: seven tables of rows, the primary-key
 and foreign-key constraints the schema declares, the column defaults, and the
 action each foreign key takes when the row it references is deleted:
 `cascade` (the referencing row goes too), `set null` (the reference is
 cleared) or no action (the delete is refused while the reference exists).
 */
module Schema {
  import opened Values
  import opened Tables

  // ---------------------------------------------------------------------------
  // Rows
  // ---------------------------------------------------------------------------

  /** A tenant. `publicAccessFee` is a Postgres `numeric`, kept as its decimal text. */
  datatype Business = Business(
    id: Uuid,
    ownerId: Uuid,
    name: Option<string>,
    isPublic: bool,
    publicAccessFee: Option<string>,
    createdAt: Timestamp,
    updatedAt: Timestamp)

  /** A user. `email` carries no unique constraint.
      `password` is written by `createUser` in queries.ts but is not a column
      of the `users` table as schema.ts declares it. */
  datatype User = User(
    id: Uuid,
    email: string,
    name: string,
    role: string,
    businessId: Option<Uuid>,
    password: Option<string>,
    createdAt: Timestamp,
    updatedAt: Timestamp)

  /** A directed access grant between two businesses. Every column but the key
      is nullable, as declared. */
  datatype BusinessAccess = BusinessAccess(
    id: Uuid,
    accessingBusinessId: Option<Uuid>,
    targetBusinessId: Option<Uuid>,
    hasAccess: Option<bool>,
    accessType: Option<string>,
    expiresAt: Option<Timestamp>,
    createdAt: Timestamp)

  /** The two values `createConversation` and `updateConversationVisibilityById`
      accept for a conversation's visibility. */
  datatype Visibility = Private | Public

  /** A conversation. `title` and `visibility` are written by queries.ts but are
      not columns of the `conversations` table as schema.ts declares it; the
      model gives the row the columns the queries use. */
  datatype Conversation = Conversation(
    id: Uuid,
    userId: Option<Uuid>,
    businessId: Option<Uuid>,
    title: Option<string>,
    visibility: Option<Visibility>,
    createdAt: Timestamp,
    updatedAt: Timestamp)

  /** A chat message. */
  datatype Message = Message(
    id: Uuid,
    conversationId: Option<Uuid>,
    senderId: Option<Uuid>,
    role: Option<string>,
    content: Option<string>,
    createdAt: Timestamp)

  /** A retrieval chunk. The embedding is kept as the opaque text it is stored as;
      the jsonb metadata is not modelled. */
  datatype RagChunk = RagChunk(
    id: Uuid,
    businessId: Option<Uuid>,
    chunkText: Option<string>,
    embedding: Option<string>,
    createdAt: Timestamp)

  /** An audit record of one retrieval. */
  datatype RagQuery = RagQuery(
    id: Uuid,
    userId: Option<Uuid>,
    businessId: Option<Uuid>,
    queryText: Option<string>,
    responseText: Option<string>,
    timestamp: Timestamp)

  /** The whole database: one sequence of rows per table. */
  datatype Db = Db(
    businesses: seq<Business>,
    users: seq<User>,
    accesses: seq<BusinessAccess>,
    conversations: seq<Conversation>,
    messages: seq<Message>,
    ragChunks: seq<RagChunk>,
    ragQueries: seq<RagQuery>)

  /** The tables, as named in error reports. */
  datatype Table = Businesses | Users | BusinessAccesses | Conversations | Messages | RagChunks | RagQueries

  /** The foreign-key columns declared without an `onDelete` action, which
      include the two the queries insert into; these are the ones that can
      refuse a statement. */
  datatype FkColumn =
    | ConversationsUserId
    | MessagesConversationId
    | MessagesSenderId
    | RagQueriesUserId

  /** Why a statement was refused; a refused statement changes nothing.
      `InvalidUuid` is Postgres's "invalid input syntax for type uuid" for a
      key given as text that is not a uuid. `NulInText` is Postgres refusing a
      text parameter that holds the character U+0000, which no `text` value
      can contain. `EmptyInsert` is Drizzle's insert builder refusing
      `values([])`, before any statement is sent. */
  datatype DbError =
    | UniqueViolation(table: Table)
    | ForeignKeyViolation(column: FkColumn)
    | InvalidUuid(text: string)
    | NulInText
    | EmptyInsert

  // ---------------------------------------------------------------------------
  // Keys and references
  // ---------------------------------------------------------------------------

  function BusinessKey(x: Business): Uuid { x.id }
  function UserKey(x: User): Uuid { x.id }
  function AccessKey(x: BusinessAccess): Uuid { x.id }
  function ConversationKey(x: Conversation): Uuid { x.id }
  function MessageKey(x: Message): Uuid { x.id }
  function ChunkKey(x: RagChunk): Uuid { x.id }
  function QueryKey(x: RagQuery): Uuid { x.id }

  function UserBusiness(x: User): Option<Uuid> { x.businessId }
  function GrantAccessing(x: BusinessAccess): Option<Uuid> { x.accessingBusinessId }
  function GrantTarget(x: BusinessAccess): Option<Uuid> { x.targetBusinessId }
  function ConversationUser(x: Conversation): Option<Uuid> { x.userId }
  function ConversationBusiness(x: Conversation): Option<Uuid> { x.businessId }
  function MessageConversation(x: Message): Option<Uuid> { x.conversationId }
  function MessageSender(x: Message): Option<Uuid> { x.senderId }
  function ChunkBusiness(x: RagChunk): Option<Uuid> { x.businessId }
  function QueryUser(x: RagQuery): Option<Uuid> { x.userId }
  function QueryBusiness(x: RagQuery): Option<Uuid> { x.businessId }

  ghost function BusinessIds(db: Db): set<Uuid> { Keys(db.businesses, BusinessKey) }
  ghost function UserIds(db: Db): set<Uuid> { Keys(db.users, UserKey) }
  ghost function ConversationIds(db: Db): set<Uuid> { Keys(db.conversations, ConversationKey) }
  ghost function MessageIds(db: Db): set<Uuid> { Keys(db.messages, MessageKey) }

  /** Every primary key is unique in its table. */
  ghost predicate KeysUnique(db: Db)
  {
    && UniqueKeys(db.businesses, BusinessKey)
    && UniqueKeys(db.users, UserKey)
    && UniqueKeys(db.accesses, AccessKey)
    && UniqueKeys(db.conversations, ConversationKey)
    && UniqueKeys(db.messages, MessageKey)
    && UniqueKeys(db.ragChunks, ChunkKey)
    && UniqueKeys(db.ragQueries, QueryKey)
  }

  /** Every non-null foreign key names an existing row (schema.ts lines 19, 26-27,
      36-37, 44-45, 53 and 62-63). */
  ghost predicate RefsIntact(db: Db)
  {
    && RefsResolve(db.users, UserBusiness, BusinessIds(db))
    && RefsResolve(db.accesses, GrantAccessing, BusinessIds(db))
    && RefsResolve(db.accesses, GrantTarget, BusinessIds(db))
    && RefsResolve(db.conversations, ConversationUser, UserIds(db))
    && RefsResolve(db.conversations, ConversationBusiness, BusinessIds(db))
    && RefsResolve(db.messages, MessageConversation, ConversationIds(db))
    && RefsResolve(db.messages, MessageSender, UserIds(db))
    && RefsResolve(db.ragChunks, ChunkBusiness, BusinessIds(db))
    && RefsResolve(db.ragQueries, QueryUser, UserIds(db))
    && RefsResolve(db.ragQueries, QueryBusiness, BusinessIds(db))
  }

  /** The integrity the database maintains between statements. */
  ghost predicate Valid(db: Db)
  {
    KeysUnique(db) && RefsIntact(db)
  }

  // ---------------------------------------------------------------------------
  // Inserting a business: the `isPublic` default
  // ---------------------------------------------------------------------------

  /** The row stored for a business insert; an omitted `isPublic` takes the
      column default `false` and both timestamps default to the insert time. */
  function NewBusiness(gen: Fresh, ownerId: Uuid, name: Option<string>,
                       isPublic: Option<bool>, publicAccessFee: Option<string>): (b: Business)
    ensures b.id == gen.id && b.ownerId == ownerId && b.name == name
    ensures b.publicAccessFee == publicAccessFee
    ensures isPublic.None? ==> !b.isPublic
    ensures isPublic.Some? ==> b.isPublic == isPublic.value
    ensures b.createdAt == gen.at && b.updatedAt == gen.at
  {
    Business(gen.id, ownerId, name,
             match isPublic case Some(p) => p case None => false,
             publicAccessFee, gen.at, gen.at)
  }

  /** Inserts a business; refused when the key is already taken. `ownerId` is
      not a foreign key, so nothing else is checked. */
  function InsertBusiness(db: Db, gen: Fresh, ownerId: Uuid, name: Option<string>,
                          isPublic: Option<bool>, publicAccessFee: Option<string>): (r: Result<Db, DbError>)
    ensures r.Err? <==> gen.id in BusinessIds(db)
    ensures r.Err? ==> r.error == UniqueViolation(Businesses)
    ensures r.Ok? ==> r.value == db.(businesses := db.businesses + [NewBusiness(gen, ownerId, name, isPublic, publicAccessFee)])
  {
    if exists i :: 0 <= i < |db.businesses| && db.businesses[i].id == gen.id then
      Err(UniqueViolation(Businesses))
    else
      Ok(db.(businesses := db.businesses + [NewBusiness(gen, ownerId, name, isPublic, publicAccessFee)]))
  }

  // ---------------------------------------------------------------------------
  // Deleting a business: cascade and set null
  // ---------------------------------------------------------------------------

  /** A reference to `b` becomes NULL; any other reference is kept. */
  function Unlink(ref: Option<Uuid>, b: Uuid): (r: Option<Uuid>)
    ensures r != Some(b)
    ensures ref != Some(b) ==> r == ref
    ensures ref == Some(b) ==> r.None?
  {
    if ref == Some(b) then None else ref
  }

  /** Rows other than the business `b`. */
  function OtherBusiness(b: Uuid): Business -> bool
  {
    (x: Business) => x.id != b
  }

  /** Grants in which `b` is neither party. */
  function GrantSurvives(b: Uuid): BusinessAccess -> bool
  {
    (g: BusinessAccess) => g.accessingBusinessId != Some(b) && g.targetBusinessId != Some(b)
  }

  function UserWithout(b: Uuid): User -> User
  {
    (u: User) => u.(businessId := Unlink(u.businessId, b))
  }

  function ConversationWithout(b: Uuid): Conversation -> Conversation
  {
    (c: Conversation) => c.(businessId := Unlink(c.businessId, b))
  }

  function ChunkWithout(b: Uuid): RagChunk -> RagChunk
  {
    (c: RagChunk) => c.(businessId := Unlink(c.businessId, b))
  }

  function QueryWithout(b: Uuid): RagQuery -> RagQuery
  {
    (q: RagQuery) => q.(businessId := Unlink(q.businessId, b))
  }

  /** `DELETE FROM businesses WHERE id = b`. Every reference to a business
      carries an action, so no foreign key refuses the delete: grants naming `b`
      cascade away, and users, conversations, chunks and queries lose their
      reference to `b`. */
  function DeleteBusiness(db: Db, b: Uuid): (r: Db)
    ensures forall x :: x in r.businesses <==> x in db.businesses && x.id != b
    ensures forall g :: g in r.accesses <==>
              g in db.accesses && g.accessingBusinessId != Some(b) && g.targetBusinessId != Some(b)
    ensures |r.users| == |db.users| && |r.conversations| == |db.conversations|
    ensures |r.ragChunks| == |db.ragChunks| && |r.ragQueries| == |db.ragQueries|
    ensures r.messages == db.messages
  {
    Db(Filter(db.businesses, OtherBusiness(b)),
       Map(db.users, UserWithout(b)),
       Filter(db.accesses, GrantSurvives(b)),
       Map(db.conversations, ConversationWithout(b)),
       db.messages,
       Map(db.ragChunks, ChunkWithout(b)),
       Map(db.ragQueries, QueryWithout(b)))
  }

  /** The cascade removes exactly the grants in which `b` is a party, each as
      many times as it occurred, and no other grant. */
  lemma DeleteBusinessCascadesGrants(db: Db, b: Uuid)
    ensures forall g :: multiset(DeleteBusiness(db, b).accesses)[g] ==
              if g.accessingBusinessId == Some(b) || g.targetBusinessId == Some(b) then 0
              else multiset(db.accesses)[g]
    ensures forall g :: g in db.accesses && (g.accessingBusinessId == Some(b) || g.targetBusinessId == Some(b))
              ==> g !in DeleteBusiness(db, b).accesses
  {
  }

  /** Set null keeps every user, conversation, chunk and query at its place;
      a row that referenced `b` now holds NULL there and is otherwise unchanged,
      and a row that did not reference `b` is unchanged altogether. */
  lemma DeleteBusinessNullsReferences(db: Db, b: Uuid)
    ensures var r := DeleteBusiness(db, b);
      && (forall i :: 0 <= i < |db.users| ==>
            r.users[i].businessId == (if db.users[i].businessId == Some(b) then None else db.users[i].businessId)
            && r.users[i].(businessId := db.users[i].businessId) == db.users[i])
      && (forall i :: 0 <= i < |db.conversations| ==>
            r.conversations[i].businessId == (if db.conversations[i].businessId == Some(b) then None else db.conversations[i].businessId)
            && r.conversations[i].(businessId := db.conversations[i].businessId) == db.conversations[i])
      && (forall i :: 0 <= i < |db.ragChunks| ==>
            r.ragChunks[i].businessId == (if db.ragChunks[i].businessId == Some(b) then None else db.ragChunks[i].businessId)
            && r.ragChunks[i].(businessId := db.ragChunks[i].businessId) == db.ragChunks[i])
      && (forall i :: 0 <= i < |db.ragQueries| ==>
            r.ragQueries[i].businessId == (if db.ragQueries[i].businessId == Some(b) then None else db.ragQueries[i].businessId)
            && r.ragQueries[i].(businessId := db.ragQueries[i].businessId) == db.ragQueries[i])
  {
  }

  /** Rows that did not reference `b` come through the delete untouched. */
  lemma DeleteBusinessKeepsUnrelatedRows(db: Db, b: Uuid)
    ensures var r := DeleteBusiness(db, b);
      && (forall i :: 0 <= i < |db.users| && db.users[i].businessId != Some(b) ==> r.users[i] == db.users[i])
      && (forall i :: 0 <= i < |db.conversations| && db.conversations[i].businessId != Some(b)
            ==> r.conversations[i] == db.conversations[i])
      && (forall i :: 0 <= i < |db.ragChunks| && db.ragChunks[i].businessId != Some(b)
            ==> r.ragChunks[i] == db.ragChunks[i])
      && (forall i :: 0 <= i < |db.ragQueries| && db.ragQueries[i].businessId != Some(b)
            ==> r.ragQueries[i] == db.ragQueries[i])
      && (forall x :: x in db.businesses && x.id != b ==> x in r.businesses)
      && r.messages == db.messages
  {
  }

  /** After the delete, no row anywhere holds `b` as a business reference. */
  lemma DeleteBusinessLeavesNoReference(db: Db, b: Uuid)
    ensures var r := DeleteBusiness(db, b);
      && b !in BusinessIds(r)
      && !Referenced(r.users, UserBusiness, b)
      && !Referenced(r.accesses, GrantAccessing, b)
      && !Referenced(r.accesses, GrantTarget, b)
      && !Referenced(r.conversations, ConversationBusiness, b)
      && !Referenced(r.ragChunks, ChunkBusiness, b)
      && !Referenced(r.ragQueries, QueryBusiness, b)
  {
  }

  /** The key sets after a business delete: only `b` leaves. */
  lemma DeleteBusinessKeys(db: Db, b: Uuid)
    ensures var r := DeleteBusiness(db, b);
      && BusinessIds(r) == BusinessIds(db) - {b}
      && UserIds(r) == UserIds(db)
      && ConversationIds(r) == ConversationIds(db)
  {
  }

  /** Deleting a business cannot duplicate a key. */
  lemma DeleteBusinessKeepsKeysUnique(db: Db, b: Uuid)
    requires KeysUnique(db)
    ensures KeysUnique(DeleteBusiness(db, b))
  {
    FilterKeepsUnique(db.businesses, OtherBusiness(b), BusinessKey);
    FilterKeepsUnique(db.accesses, GrantSurvives(b), AccessKey);
    MapKeepsKeys(db.users, UserWithout(b), UserKey);
    MapKeepsKeys(db.conversations, ConversationWithout(b), ConversationKey);
    MapKeepsKeys(db.ragChunks, ChunkWithout(b), ChunkKey);
    MapKeepsKeys(db.ragQueries, QueryWithout(b), QueryKey);
  }

  /** Deleting a business leaves no dangling reference: the references to `b`
      are exactly the ones cascade and set null remove. */
  lemma DeleteBusinessKeepsRefsIntact(db: Db, b: Uuid)
    requires RefsIntact(db)
    ensures RefsIntact(DeleteBusiness(db, b))
  {
    var r := DeleteBusiness(db, b);
    DeleteBusinessKeys(db, b);
    DeleteBusinessLeavesNoReference(db, b);
    var bs, bs' := BusinessIds(db), BusinessIds(r);
    forall j | 0 <= j < |r.accesses|
      ensures Resolves(GrantAccessing(r.accesses[j]), bs')
      ensures Resolves(GrantTarget(r.accesses[j]), bs')
    {
      var k := FilteredRowIn(db.accesses, GrantSurvives(b), j);
    }
    forall i | 0 <= i < |r.users| ensures Resolves(UserBusiness(r.users[i]), bs') {
      assert Resolves(UserBusiness(db.users[i]), bs);
    }
    forall i | 0 <= i < |r.conversations| ensures Resolves(ConversationBusiness(r.conversations[i]), bs') {
      assert Resolves(ConversationBusiness(db.conversations[i]), bs);
    }
    forall i | 0 <= i < |r.ragChunks| ensures Resolves(ChunkBusiness(r.ragChunks[i]), bs') {
      assert Resolves(ChunkBusiness(db.ragChunks[i]), bs);
    }
    forall i | 0 <= i < |r.ragQueries| ensures Resolves(QueryBusiness(r.ragQueries[i]), bs') {
      assert Resolves(QueryBusiness(db.ragQueries[i]), bs);
    }
  }

  /** Deleting a business keeps the database consistent. */
  lemma DeleteBusinessPreservesValid(db: Db, b: Uuid)
    requires Valid(db)
    ensures Valid(DeleteBusiness(db, b))
  {
    DeleteBusinessKeepsKeysUnique(db, b);
    DeleteBusinessKeepsRefsIntact(db, b);
  }

  // ---------------------------------------------------------------------------
  // Deletes refused while referenced
  // ---------------------------------------------------------------------------

  /** Rows other than the conversation `c`. */
  function OtherConversation(c: Uuid): Conversation -> bool
  {
    (x: Conversation) => x.id != c
  }

  /** Rows other than the user `u`. */
  function OtherUser(u: Uuid): User -> bool
  {
    (x: User) => x.id != u
  }

  /** `DELETE FROM conversations WHERE id = c`. `messages.conversation_id`
      carries no action, so the delete is refused while a message names `c`. */
  function DeleteConversation(db: Db, c: Uuid): (r: Result<Db, DbError>)
    ensures r.Err? <==> Referenced(db.messages, MessageConversation, c)
    ensures r.Err? ==> r.error == ForeignKeyViolation(MessagesConversationId)
    ensures r.Ok? ==> r.value == db.(conversations := r.value.conversations)
    ensures r.Ok? ==> forall x :: x in r.value.conversations <==> x in db.conversations && x.id != c
  {
    if Referenced(db.messages, MessageConversation, c) then Err(ForeignKeyViolation(MessagesConversationId))
    else Ok(db.(conversations := Filter(db.conversations, OtherConversation(c))))
  }

  /** `DELETE FROM users WHERE id = u`. `conversations.user_id`,
      `messages.sender_id` and `rag_queries.user_id` carry no action, so the
      delete is refused while any of them names `u`; the reported column is
      one that does. */
  function DeleteUser(db: Db, u: Uuid): (r: Result<Db, DbError>)
    ensures r.Err? <==>
      Referenced(db.conversations, ConversationUser, u)
      || Referenced(db.messages, MessageSender, u)
      || Referenced(db.ragQueries, QueryUser, u)
    ensures r.Err? && r.error == ForeignKeyViolation(ConversationsUserId) ==> Referenced(db.conversations, ConversationUser, u)
    ensures r.Err? && r.error == ForeignKeyViolation(MessagesSenderId) ==> Referenced(db.messages, MessageSender, u)
    ensures r.Err? && r.error == ForeignKeyViolation(RagQueriesUserId) ==> Referenced(db.ragQueries, QueryUser, u)
    ensures r.Err? ==> r.error.ForeignKeyViolation?
    ensures r.Ok? ==> r.value == db.(users := r.value.users)
    ensures r.Ok? ==> forall x :: x in r.value.users <==> x in db.users && x.id != u
  {
    if Referenced(db.conversations, ConversationUser, u) then Err(ForeignKeyViolation(ConversationsUserId))
    else if Referenced(db.messages, MessageSender, u) then Err(ForeignKeyViolation(MessagesSenderId))
    else if Referenced(db.ragQueries, QueryUser, u) then Err(ForeignKeyViolation(RagQueriesUserId))
    else Ok(db.(users := Filter(db.users, OtherUser(u))))
  }

  /** `businesses.owner_id` is not a foreign key: a user who owns a business
      but is otherwise unreferenced is deleted, and the business keeps naming
      the deleted user as its owner. */
  lemma DeleteOwnerAccepted()
    ensures var biz := Business("b", "u", None, false, None, 0, 0);
            var owner := User("u", "u@example.com", "U", "admin", Some("b"), None, 0, 0);
            var db := Db([biz], [owner], [], [], [], [], []);
            var r := DeleteUser(db, "u");
            && Valid(db)
            && r.Ok?
            && r.value.businesses == [biz]
            && "u" !in UserIds(r.value)
  {
    var owner := User("u", "u@example.com", "U", "admin", Some("b"), None, 0, 0);
    var db := Db([Business("b", "u", None, false, None, 0, 0)], [owner], [], [], [], [], []);
    assert BusinessKey(db.businesses[0]) == "b";
    assert [owner][1..] == [];
  }

  /** An accepted conversation delete keeps the database consistent. */
  lemma DeleteConversationPreservesValid(db: Db, c: Uuid)
    requires Valid(db)
    ensures DeleteConversation(db, c).Ok? ==> Valid(DeleteConversation(db, c).value)
  {
    var r := DeleteConversation(db, c);
    if r.Ok? {
      var d := r.value;
      FilterKeepsUnique(db.conversations, OtherConversation(c), ConversationKey);
      FilterKeepsRefs(db.conversations, OtherConversation(c), ConversationUser, UserIds(db));
      FilterKeepsRefs(db.conversations, OtherConversation(c), ConversationBusiness, BusinessIds(db));
      KeysWithout(db.conversations, OtherConversation(c), ConversationKey, c);
      forall i | 0 <= i < |d.messages| ensures Resolves(MessageConversation(d.messages[i]), ConversationIds(d)) {
        assert MessageConversation(db.messages[i]) != Some(c);
      }
    }
  }

  /** An accepted user delete keeps the database consistent. */
  lemma DeleteUserPreservesValid(db: Db, u: Uuid)
    requires Valid(db)
    ensures DeleteUser(db, u).Ok? ==> Valid(DeleteUser(db, u).value)
  {
    var r := DeleteUser(db, u);
    if r.Ok? {
      var d := r.value;
      FilterKeepsUnique(db.users, OtherUser(u), UserKey);
      FilterKeepsRefs(db.users, OtherUser(u), UserBusiness, BusinessIds(db));
      KeysWithout(db.users, OtherUser(u), UserKey, u);
      forall i | 0 <= i < |d.conversations| ensures Resolves(ConversationUser(d.conversations[i]), UserIds(d)) {
        assert ConversationUser(db.conversations[i]) != Some(u);
      }
      forall i | 0 <= i < |d.messages| ensures Resolves(MessageSender(d.messages[i]), UserIds(d)) {
        assert MessageSender(db.messages[i]) != Some(u);
      }
      forall i | 0 <= i < |d.ragQueries| ensures Resolves(QueryUser(d.ragQueries[i]), UserIds(d)) {
        assert QueryUser(db.ragQueries[i]) != Some(u);
      }
    }
  }

  /** An accepted business insert keeps the database consistent. */
  lemma InsertBusinessPreservesValid(db: Db, gen: Fresh, ownerId: Uuid, name: Option<string>,
                                     isPublic: Option<bool>, publicAccessFee: Option<string>)
    requires Valid(db)
    ensures var r := InsertBusiness(db, gen, ownerId, name, isPublic, publicAccessFee);
      r.Ok? ==> Valid(r.value)
  {
    var r := InsertBusiness(db, gen, ownerId, name, isPublic, publicAccessFee);
    if r.Ok? {
      var row := NewBusiness(gen, ownerId, name, isPublic, publicAccessFee);
      AppendKeys(db.businesses, [row], BusinessKey);
      assert BusinessKey([row][0]) == gen.id;
      assert Keys([row], BusinessKey) == {gen.id};
      assert BusinessIds(db) <= BusinessIds(r.value);
    }
  }
}

=== FILE: session.dfy ===
/**
 The session refresher of lib/supabase/middleware.ts: without a user, every
 path outside the authentication pages is redirected to the login page, "/"
 included. The redirect clones the request URL and replaces its path only.
 The user lookup is an input: whether `getUser()` yielded a user.
 */
module SessionMiddleware {
  import opened Http
  import RootMiddleware

  /** The routing decision of `updateSession(request)`. */
  function UpdateSession(hasUser: bool, req: Url): (r: Response)
    ensures r.Redirect? ==> r.location == req.(pathname := "/login")
  {
    if !hasUser && !IsAuthPath(req.pathname) then Redirect(req.(pathname := "/login"))
    else Next
  }

  /** A request passes exactly when there is a user or the path is an
      authentication page; the redirect keeps origin, query and fragment. */
  lemma UpdateSessionCases(hasUser: bool, req: Url)
    ensures UpdateSession(hasUser, req) == Next <==> hasUser || IsAuthPath(req.pathname)
    ensures hasUser ==> UpdateSession(hasUser, req) == Next
    ensures UpdateSession(hasUser, req).Redirect? ==>
      var to := UpdateSession(hasUser, req).location;
      to.pathname == "/login" && to.origin == req.origin && to.search == req.search && to.hash == req.hash
  {
  }

  /** Unlike the root middleware, "/" without a user is sent to the login page. */
  lemma RootPathDiffers(req: Url)
    requires req.pathname == "/"
    ensures UpdateSession(false, req).Redirect?
    ensures RootMiddleware.Middleware(false, req) == Next
  {
  }

  /** No redirect loop: the login page is itself exempt. */
  lemma UpdateSessionNoLoop(hasUser: bool, req: Url)
    ensures UpdateSession(hasUser, req).Redirect? ==> UpdateSession(hasUser, UpdateSession(hasUser, req).location) == Next
  {
  }
}

=== FILE: tables.dfy ===
/**
 Tables as immutable sequences of rows, with the three generic operations the
 database statements are built from: keep the rows a predicate selects, rewrite
 every row, and append rows. Primary keys and foreign keys are described
 through projection functions so that one definition serves every table.
 */
module Tables {
  import opened Values

  /** The rows of `s` that `keep` selects, in their original order. */
  function Filter<T(!new)>(s: seq<T>, keep: T -> bool): (r: seq<T>)
    ensures |r| <= |s|
    ensures forall x :: x in r <==> x in s && keep(x)
    ensures forall x :: multiset(r)[x] == (if keep(x) then multiset(s)[x] else 0)
  {
    if |s| == 0 then []
    else
      assert s == [s[0]] + s[1..];
      var rest := Filter(s[1..], keep);
      if keep(s[0]) then [s[0]] + rest else rest
  }

  /** Every row of `s` rewritten by `f`, position by position. */
  function Map<T>(s: seq<T>, f: T -> T): (r: seq<T>)
    ensures |r| == |s|
    ensures forall i :: 0 <= i < |s| ==> r[i] == f(s[i])
  {
    seq(|s|, i requires 0 <= i < |s| => f(s[i]))
  }

  /** The set of keys the rows of `s` carry. */
  ghost function Keys<T>(s: seq<T>, key: T -> Uuid): set<Uuid>
  {
    set i | 0 <= i < |s| :: key(s[i])
  }

  /** No two rows of `s` share a key: the primary-key constraint. */
  ghost predicate UniqueKeys<T>(s: seq<T>, key: T -> Uuid)
  {
    forall i, j :: 0 <= i < j < |s| ==> key(s[i]) != key(s[j])
  }

  /** A nullable reference is satisfied when it is NULL or names a key in `keys`. */
  predicate Resolves(ref: Option<Uuid>, keys: set<Uuid>)
  {
    ref.None? || ref.value in keys
  }

  /** Every row's reference `ref` resolves into `keys`: the foreign-key constraint. */
  ghost predicate RefsResolve<T>(s: seq<T>, ref: T -> Option<Uuid>, keys: set<Uuid>)
  {
    forall i :: 0 <= i < |s| ==> Resolves(ref(s[i]), keys)
  }

  /** Whether some row of `s` refers to `k` through `ref`. */
  predicate Referenced<T>(s: seq<T>, ref: T -> Option<Uuid>, k: Uuid)
  {
    exists i :: 0 <= i < |s| && ref(s[i]) == Some(k)
  }

  /** Filtering with a predicate every row satisfies changes nothing. */
  lemma {:induction false} FilterKeepsAll<T(!new)>(s: seq<T>, keep: T -> bool)
    requires forall i :: 0 <= i < |s| ==> keep(s[i])
    ensures Filter(s, keep) == s
  {
    if |s| > 0 {
      FilterKeepsAll(s[1..], keep);
      assert s == [s[0]] + s[1..];
    }
  }

  /** Filtering twice with the same predicate is filtering once. */
  lemma FilterIdempotent<T(!new)>(s: seq<T>, keep: T -> bool)
    ensures Filter(Filter(s, keep), keep) == Filter(s, keep)
  {
    var r := Filter(s, keep);
    forall i | 0 <= i < |r| ensures keep(r[i]) {
      assert r[i] in r;
    }
    FilterKeepsAll(r, keep);
  }

  /** A row index of `r` that came from `s` through a filter. */
  lemma FilteredRowIn<T(!new)>(s: seq<T>, keep: T -> bool, j: int) returns (k: int)
    requires 0 <= j < |Filter(s, keep)|
    ensures 0 <= k < |s| && s[k] == Filter(s, keep)[j]
  {
    var r := Filter(s, keep);
    assert r[j] in r;
    assert r[j] in s;
    k :| 0 <= k < |s| && s[k] == r[j];
  }

  /** Removing rows cannot create a duplicate key. */
  lemma {:induction false} FilterKeepsUnique<T(!new)>(s: seq<T>, keep: T -> bool, key: T -> Uuid)
    requires UniqueKeys(s, key)
    ensures UniqueKeys(Filter(s, keep), key)
  {
    if |s| > 0 {
      var t := s[1..];
      FilterKeepsUnique(t, keep, key);
      var rest := Filter(t, keep);
      if keep(s[0]) {
        forall x | x in Keys(rest, key) ensures x != key(s[0]) {
          var j :| 0 <= j < |rest| && key(rest[j]) == x;
          var k := FilteredRowIn(t, keep, j);
          assert s[k + 1] == rest[j];
        }
        assert key([s[0]][0]) == key(s[0]);
        assert Keys([s[0]], key) == {key(s[0])};
        AppendKeys([s[0]], rest, key);
      }
    }
  }

  /** A filtered table's references still resolve wherever the original's did. */
  lemma FilterKeepsRefs<T(!new)>(s: seq<T>, keep: T -> bool, ref: T -> Option<Uuid>, keys: set<Uuid>)
    requires RefsResolve(s, ref, keys)
    ensures RefsResolve(Filter(s, keep), ref, keys)
  {
  }

  /** The keys left after removing the rows whose key is `k`. */
  lemma KeysWithout<T(!new)>(s: seq<T>, keep: T -> bool, key: T -> Uuid, k: Uuid)
    requires forall x :: keep(x) <==> key(x) != k
    ensures Keys(Filter(s, keep), key) == Keys(s, key) - {k}
  {
  }

  /** Rewriting rows without touching their key keeps the key set. */
  lemma MapKeepsKeys<T>(s: seq<T>, f: T -> T, key: T -> Uuid)
    requires forall x :: key(f(x)) == key(x)
    ensures Keys(Map(s, f), key) == Keys(s, key)
    ensures UniqueKeys(s, key) ==> UniqueKeys(Map(s, f), key)
  {
  }

  /** The keys of an appended table are the keys of both parts. */
  lemma AppendKeys<T>(s: seq<T>, t: seq<T>, key: T -> Uuid)
    ensures Keys(s + t, key) == Keys(s, key) + Keys(t, key)
    ensures (UniqueKeys(s, key) && UniqueKeys(t, key) && Keys(s, key) !! Keys(t, key))
            ==> UniqueKeys(s + t, key)
  {
    var u := s + t;
    forall x | x in Keys(u, key) ensures x in Keys(s, key) + Keys(t, key) {
      var i :| 0 <= i < |u| && key(u[i]) == x;
      if i >= |s| { assert u[i] == t[i - |s|]; }
    }
    forall x | x in Keys(s, key) + Keys(t, key) ensures x in Keys(u, key) {
      if x in Keys(s, key) {
        var i :| 0 <= i < |s| && key(s[i]) == x;
        assert u[i] == s[i];
      } else {
        var i :| 0 <= i < |t| && key(t[i]) == x;
        assert u[|s| + i] == t[i];
      }
    }
    if UniqueKeys(s, key) && UniqueKeys(t, key) && Keys(s, key) !! Keys(t, key) {
      forall i, j | 0 <= i < j < |u| ensures key(u[i]) != key(u[j]) {
        if j < |s| {
        } else if i >= |s| {
          assert u[i] == t[i - |s|] && u[j] == t[j - |s|];
        } else {
          assert key(u[i]) in Keys(s, key);
          assert u[j] == t[j - |s|];
          assert key(u[j]) in Keys(t, key);
        }
      }
    }
  }
}

=== FILE: uuids.dfy ===
/**
 How Postgres reads the text of a `uuid` value. The key columns of the schema
 have type `uuid`, so a key passed to a query as text is parsed first: text
 that is not a uuid makes the statement fail, and two spellings of one value
 (upper- and lower-case hex digits, with or without hyphens or braces) name
 the same row. A stored key stands for the value's canonical text, 32
 lower-case hex digits grouped 8-4-4-4-12 by hyphens. The keys the queries
 write come from `crypto.randomUUID()`, which yields that text, and Postgres
 hands any uuid value back in that form; the model assumes this of the keys
 it is given and does not check it.
 */
module UuidText {
  import opened Values

  predicate IsHexDigit(c: char)
  {
    '0' <= c <= '9' || 'a' <= c <= 'f' || 'A' <= c <= 'F'
  }

  predicate IsLowerHexDigit(c: char)
  {
    '0' <= c <= '9' || 'a' <= c <= 'f'
  }

  /** ASCII lower-casing; every other character is kept. */
  function LowerChar(c: char): (d: char)
    ensures IsHexDigit(c) ==> IsLowerHexDigit(d)
    ensures IsHexDigit(c) <==> IsHexDigit(d)
    ensures d == '-' <==> c == '-'
    ensures d == '}' <==> c == '}'
    ensures d == '{' <==> c == '{'
  {
    if 'A' <= c <= 'Z' then (c as int + 32) as char else c
  }

  /** ASCII upper-casing; every other character is kept. */
  function UpperChar(c: char): (d: char)
    ensures LowerChar(d) == LowerChar(c)
  {
    if 'a' <= c <= 'z' then (c as int - 32) as char else c
  }

  /** The upper-case spelling of a text. */
  function Upper(s: string): (r: string)
    ensures |r| == |s|
  {
    seq(|s|, i requires 0 <= i < |s| => UpperChar(s[i]))
  }

  /** Two texts that differ at most in the case of their letters. */
  predicate SameUpToCase(a: string, b: string)
  {
    |a| == |b| && forall i :: 0 <= i < |a| ==> LowerChar(a[i]) == LowerChar(b[i])
  }

  /** Every character of `d` is a lower-case hex digit. */
  predicate AllLowerHex(d: string)
  {
    forall k :: 0 <= k < |d| ==> IsLowerHexDigit(d[k])
  }

  /** Four-digit groups of `d`, group `i` followed by a hyphen when `hy[i]`. */
  function Lay(d: string, hy: seq<bool>): (s: string)
    requires |d| == 4 * |hy|
    ensures |hy| > 0 ==> |s| >= 4 && s[..4] == d[..4]
    decreases |hy|
  {
    if |hy| == 0 then "" else d[..4] + (if hy[0] then "-" else "") + Lay(d[4..], hy[1..])
  }

  /** Canonical text puts a hyphen after the first five groups but the first:
      8-4-4-4-12. */
  const CanonicalHyphens: seq<bool> := [false, true, true, true, true, false, false, false]

  /** 32 hex digits written in the canonical grouping. */
  function Hyphenate(d: string): string
    requires |d| == 32
  {
    Lay(d, CanonicalHyphens)
  }

  /** The canonical text of a uuid, as Postgres prints one: 32 lower-case hex
      digits in the canonical grouping. */
  ghost predicate IsCanonical(s: string)
  {
    exists d :: |d| == 32 && AllLowerHex(d) && s == Hyphenate(d)
  }

  /** Reads `n` groups of four hex digits, of either case, from the front of
      `s`; a single hyphen may follow any group but the last. Yields the digits
      read, lower-cased, and the text after them. */
  function Groups(s: string, n: nat): (r: Option<(string, string)>)
    ensures r.Some? ==> |r.value.0| == 4 * n
    decreases n
  {
    if n == 0 then Some(("", s))
    else if |s| < 4 || !(IsHexDigit(s[0]) && IsHexDigit(s[1]) && IsHexDigit(s[2]) && IsHexDigit(s[3])) then None
    else
      var group := [LowerChar(s[0]), LowerChar(s[1]), LowerChar(s[2]), LowerChar(s[3])];
      var rest := if n > 1 && |s| > 4 && s[4] == '-' then s[5..] else s[4..];
      match Groups(rest, n - 1)
      case None => None
      case Some(more) => Some((group + more.0, more.1))
  }

  /** The digits `Groups` yields are lower-case. */
  lemma {:induction false} GroupsLowerCase(s: string, n: nat)
    ensures Groups(s, n).Some? ==> AllLowerHex(Groups(s, n).value.0)
    decreases n
  {
    if n > 0 && |s| >= 4 {
      GroupsLowerCase(if n > 1 && |s| > 4 && s[4] == '-' then s[5..] else s[4..], n - 1);
    }
  }

  /** 32 digits followed by exactly `close`, as canonical text. */
  function Body(s: string, close: string): (r: Option<Uuid>)
    ensures r.Some? ==> IsCanonical(r.value)
  {
    GroupsLowerCase(s, 8);
    match Groups(s, 8)
    case Some(g) => if g.1 == close then Some(Hyphenate(g.0)) else None
    case None => None
  }

  /** Postgres's `uuid` input: optional surrounding braces, then 32 hex digits
      in either case with a hyphen allowed after any group of four but the
      last, and nothing else. Yields the value's canonical text, or `None`
      where Postgres reports invalid input syntax. */
  function ParseUuid(s: string): (r: Option<Uuid>)
    ensures r.Some? ==> IsCanonical(r.value)
  {
    if |s| > 0 && s[0] == '{' then Body(s[1..], "}") else Body(s, "")
  }

  // ---------------------------------------------------------------------------
  // Canonical text reads back as itself
  // ---------------------------------------------------------------------------

  /** One step of `Groups` on text that starts with four lower-case digits. */
  lemma GroupsStep(s: string, n: nat, rest: string, more: string, tail: string)
    requires n >= 1 && |s| >= 4
    requires forall k :: 0 <= k < 4 ==> IsLowerHexDigit(s[k])
    requires rest == if n > 1 && |s| > 4 && s[4] == '-' then s[5..] else s[4..]
    requires Groups(rest, n - 1) == Some((more, tail))
    ensures Groups(s, n) == Some((s[..4] + more, tail))
  {
    assert [LowerChar(s[0]), LowerChar(s[1]), LowerChar(s[2]), LowerChar(s[3])] == s[..4];
  }

  /** Lower-case digits laid out in groups, with a hyphen after any group but
      the last, read back as those digits and nothing after them. */
  lemma {:induction false} GroupsOfLay(d: string, hy: seq<bool>)
    requires |d| == 4 * |hy| && AllLowerHex(d)
    requires |hy| > 0 ==> !hy[|hy| - 1]
    ensures Groups(Lay(d, hy), |hy|) == Some((d, ""))
    decreases |hy|
  {
    if |hy| > 0 {
      var rest := Lay(d[4..], hy[1..]);
      assert |hy[1..]| > 0 ==> hy[1..][|hy[1..]| - 1] == hy[|hy| - 1];
      assert AllLowerHex(d[4..]) by {
        forall k | 0 <= k < |d| - 4 ensures IsLowerHexDigit(d[4..][k]) {
          assert d[4..][k] == d[k + 4];
        }
      }
      GroupsOfLay(d[4..], hy[1..]);
      var s := Lay(d, hy);
      assert forall k :: 0 <= k < 4 ==> s[k] == s[..4][k] == d[k];
      if hy[0] {
        assert s[4] == '-' && s[5..] == rest;
      } else {
        assert s[4..] == rest;
        if |hy| > 1 {
          assert s[4] == rest[..4][0] == d[4];
        }
      }
      GroupsStep(s, |hy|, rest, d[4..], "");
      assert d[..4] + d[4..] == d;
    }
  }

  /** Canonical text is accepted and names the value it spells. */
  lemma ParseCanonical(u: string)
    requires IsCanonical(u)
    ensures ParseUuid(u) == Some(u)
  {
    var d :| |d| == 32 && AllLowerHex(d) && u == Hyphenate(d);
    HyphenateReadsBack(d);
    assert ParseUuid(u) == Body(u, "");
  }

  /** Canonical text of lower-case digits reads back as those digits and
      starts with a digit. */
  lemma HyphenateReadsBack(d: string)
    requires |d| == 32 && AllLowerHex(d)
    ensures Groups(Hyphenate(d), 8) == Some((d, ""))
    ensures Hyphenate(d)[0] == d[0] && IsLowerHexDigit(d[0])
  {
    assert |CanonicalHyphens| == 8 && !CanonicalHyphens[7];
    GroupsOfLay(d, CanonicalHyphens);
    assert Hyphenate(d)[0] == Hyphenate(d)[..4][0];
  }

  // ---------------------------------------------------------------------------
  // Letter case does not matter
  // ---------------------------------------------------------------------------

  lemma SameUpToCaseSuffix(a: string, b: string, k: nat)
    requires SameUpToCase(a, b) && k <= |a|
    ensures SameUpToCase(a[k..], b[k..])
  {
    forall i | 0 <= i < |a| - k ensures LowerChar(a[k..][i]) == LowerChar(b[k..][i]) {
      assert a[k..][i] == a[k + i];
    }
  }

  /** Two spellings that differ only in case read as the same digits, and
      leave texts that again differ only in case. */
  lemma {:induction false} GroupsIgnoreCase(a: string, b: string, n: nat)
    requires SameUpToCase(a, b)
    ensures Groups(a, n).Some? <==> Groups(b, n).Some?
    ensures Groups(a, n).Some? ==>
      Groups(a, n).value.0 == Groups(b, n).value.0 && SameUpToCase(Groups(a, n).value.1, Groups(b, n).value.1)
    decreases n
  {
    if n > 0 && |a| >= 4 {
      assert LowerChar(a[0]) == LowerChar(b[0]) && LowerChar(a[1]) == LowerChar(b[1]);
      assert LowerChar(a[2]) == LowerChar(b[2]) && LowerChar(a[3]) == LowerChar(b[3]);
      if |a| > 4 {
        assert LowerChar(a[4]) == LowerChar(b[4]);
        SameUpToCaseSuffix(a, b, 5);
      }
      SameUpToCaseSuffix(a, b, 4);
      var restA := if n > 1 && |a| > 4 && a[4] == '-' then a[5..] else a[4..];
      var restB := if n > 1 && |b| > 4 && b[4] == '-' then b[5..] else b[4..];
      GroupsIgnoreCase(restA, restB, n - 1);
    }
  }

  /** The 32 digits and their closing text read the same under either spelling. */
  lemma BodyIgnoresCase(a: string, b: string, close: string)
    requires SameUpToCase(a, b)
    requires close == "" || close == "}"
    ensures Body(a, close) == Body(b, close)
  {
    GroupsIgnoreCase(a, b, 8);
    if Groups(a, 8).Some? {
      TailIgnoresCase(Groups(a, 8).value.1, Groups(b, 8).value.1, close);
    }
  }

  /** Whether the text after the digits is the closing text does not depend
      on its spelling. */
  lemma TailIgnoresCase(x: string, y: string, close: string)
    requires SameUpToCase(x, y)
    requires close == "" || close == "}"
    ensures x == close <==> y == close
  {
    if |x| == 1 {
      assert LowerChar(x[0]) == LowerChar(y[0]);
    }
  }

  /** Postgres compares uuid values, not spellings: texts that differ only in
      the case of their letters are both refused or name the same value. */
  lemma ParseIgnoresCase(a: string, b: string)
    requires SameUpToCase(a, b)
    ensures ParseUuid(a) == ParseUuid(b)
  {
    if |a| > 0 && a[0] == '{' {
      assert LowerChar(a[0]) == LowerChar(b[0]);
      SameUpToCaseSuffix(a, b, 1);
      BodyIgnoresCase(a[1..], b[1..], "}");
    } else {
      if |a| > 0 {
        assert LowerChar(a[0]) == LowerChar(b[0]);
      }
      BodyIgnoresCase(a, b, "");
    }
  }

  /** The upper-case spelling of a stored key names that key. */
  lemma UpperCaseNamesSameKey(u: string)
    requires IsCanonical(u)
    ensures ParseUuid(Upper(u)) == Some(u)
  {
    ParseCanonical(u);
    ParseIgnoresCase(Upper(u), u);
  }

  /** Text that is not a uuid is refused. */
  lemma ParseExamples()
    ensures ParseUuid("not-a-uuid").None?
    ensures ParseUuid("") == None
  {
  }
}

=== FILE: values.dfy ===
/**
 Scalar vocabulary shared by the whole model: optional values (SQL NULL,
 a missing query parameter), results with an error, and the two values the
 application draws from its environment when it inserts a row.
 */
module Values {

  /** A value that may be absent: a nullable column or an absent parameter. */
  datatype Option<+T> = None | Some(value: T)

  /** The outcome of a statement the database may refuse. */
  datatype Result<+T, +E> = Ok(value: T) | Err(error: E)

  /** A primary or foreign key: a uuid value, taken to be written as its
      canonical text (lower-case hex digits grouped 8-4-4-4-12, see module
      UuidText); nothing in the model enforces that spelling. */
  type Uuid = string

  /** A point in time, as milliseconds since the epoch. */
  type Timestamp = int

  /** What `crypto.randomUUID()` and `new Date()` produce for one inserted row:
      both are taken as inputs rather than generated. */
  datatype Fresh = Fresh(id: Uuid, at: Timestamp)
}
